=== FILE: README.md ===
# epson-pos `pkg/escpos` in Dafny

This project models the textual ESC/POS codec of `pkg/escpos`. It has three parts:

- **The mnemonic table** (`commands.go`). Thirteen symbolic names such as `ESC`, `GS` and `LF`, each standing for one control byte.
- **The converter** (`Convert`, `converter.go`). It turns IR text into printer bytes:
  - it reads LF-terminated records and trims each one;
  - it skips blank lines, one-character lines and `'//` comment lines;
  - it splits every other line on single spaces;
  - it resolves each token through a fixed rule chain with a per-line quote flag. A token becomes a mnemonic byte, literal text (through `StringToAsciiBytes`), or a number read by `strconv.ParseUint(p, 0, 8)`.
- **The builder** (`builder.go`). Each `ESCPOS` method writes one `'//` comment line and one instruction line of IR text, with two exceptions. An unknown justification writes only its error comment. `Print` writes no comment: it writes one four-space-indented line per row of its argument, and every row but the last ends with ` LF`.

The files are:

| file | module | contents |
|---|---|---|
| `base.dfy` | `Base` | bytes, `Option`, `Result`, `Join` of a list with a separator, concatenation of a list of texts |
| `text.dfy` | `Text` | `strings.Split` and its laws with `Join`, `bufio` records, `TrimSpace`, `HasPrefix`/`HasSuffix`, `ToLower` |
| `strconv.dfy` | `Strconv` | `ParseUint(s, 0, 8)`; `%d`, which the builder writes; and `%x`, which the reference spelling behind `Converter.ConvertSpelled` uses |
| `commands.dfy` | `Commands` | the mnemonic table and its inverse |
| `converter.dfy` | `Converter` | `Convert`: the rule chain, the quote flag, records, errors, and an imperative loop that matches the functional model |
| `builder.dfy` | `Builder` | every builder method as a function returning its IR text |
| `builder_lines.dfy`, `builder_bytes.dfy` | `BuilderLines`, `BuilderBytes` | what `Convert` makes of each method's text |
| `builder_print.dfy` | `BuilderPrint` | `Print`: tabs become HT and line feeds become LF |
| `builder_spacing.dfy` | `BuilderSpacing` | the line-spacing finding below |
| `quote_space.dfy` | `QuoteSpace` | the lost-space finding below |

`Convert` is a pure function from a `Source` to a `Converted`:
- A `Source` is the text the reader delivers, plus how the reader ends: `Eof` or `ReadError`.
- A `Converted` is the bytes written plus an optional error. Bytes written before an error stay in it.
- `StringToAsciiBytes` is a parameter `toAscii: string -> seq<byte>`, and no property of it is assumed.

A Dafny `string` stands for the bytes of a Go string, one character per byte.

Behaviour worth knowing, modelled as written:
- A lone `"` token sets the quote flag; it never clears it (converter.go:40-43). So a `Print` cell that ends with a space turns the rest of its row into text.
- `Print` ends with a bare newline, not an LF token (builder.go:209). So `Print` sends no line feed after its last row, although the comments at builder.go:68 and 188-190 say only that newlines are converted to LF.
- A line with one character left after trimming is skipped, even a one-digit number such as `7` (converter.go:32).
- The space after an opening quote fragment is lost. `"Hello World"` converts to `Hello` then `World`. A round trip of text with spaces through `Print` and `Convert` therefore does not hold. See the findings below.

## Model

| member | source | states |
|---|---|---|
| Commands.TableKeys | pkg/escpos/commands.go:9-25 | the table holds exactly the thirteen mnemonics EOT, ENQ, HT, DLE, LF, FF, CR, DC4, CAN, ESC, FS, GS and SP |
| Commands.TableInjective | pkg/escpos/commands.go:10-22 | no two mnemonics share a byte |
| Commands.NameOfCode | pkg/escpos/commands.go:10-22 | the table can be read backwards: every mnemonic's byte leads back to that mnemonic |
| Commands.MnemonicShape | pkg/escpos/commands.go:10-22 | every mnemonic is at least two characters long, starts with a capital, has no quote, apostrophe or white space, and is not a number `ParseUint` accepts; so a one-mnemonic line is never skipped and never read as text or a number |
| Commands.NoZeroCode | pkg/escpos/commands.go:24 | `NUL` is not a mnemonic, and no mnemonic stands for the byte 0 |
| Strconv.BaseOf | pkg/escpos/converter.go:94 | base 0 picks binary, octal, decimal or hexadecimal; it picks decimal exactly when the literal does not start with `0`, and then the whole literal is digits |
| Strconv.ParseByte | pkg/escpos/converter.go:94-97 | a literal that parses starts with a decimal digit |
| Strconv.ParseByteDigits | pkg/escpos/converter.go:94-97 | a token without underscores parses exactly when it is a base prefix (or none) followed by digits of that base whose value is at most 255, and then to that value; `12x`, `08`, `0x1G` and `256` are errors |
| Strconv.ScanDigits | pkg/escpos/converter.go:94-97 | the digit loop returns the value the digits denote when it fits in a byte, and a range error when it does not |
| Strconv.DecimalValue | pkg/escpos/builder.go:103 | the `%d` text of n, read back as decimal digits, is n |
| Strconv.HexValue | pkg/escpos/converter.go:94-97 | the hexadecimal text of n, read back as hexadecimal digits, is n |
| Strconv.ParseDecimal | pkg/escpos/converter.go:94-97 | `ParseUint` of the `%d` text of n gives n when n <= 255 and a range error above |
| Strconv.ParseHex | pkg/escpos/converter.go:94-97 | `ParseUint` of `0x` followed by the hexadecimal text of a byte gives that byte |
| Strconv.ParseHexPair | pkg/escpos/builder.go:174 | `0x` followed by two decimal digits h and l reads as the byte 16*h + l |
| Text.Split | pkg/escpos/converter.go:37 | the pieces of `strings.Split` hold no separator and join back to the text |
| Text.SplitJoin | pkg/escpos/converter.go:37 | splitting undoes joining for pieces without the separator |
| Text.RecordsCover | pkg/escpos/converter.go:24 | the records `ReadString` returns are a prefix of the input, and the rest holds no LF |
| Text.RecordsAll | pkg/escpos/converter.go:24 | input that ends with LF is read completely |
| Text.TrimSpaceOf | pkg/escpos/converter.go:31 | `TrimSpace` removes exactly the white space around a core that neither starts nor ends with white space |
| Text.ToLowerMatches | pkg/escpos/builder.go:118 | comparing the lowered argument with a text free of capitals, as `Justification` does, accepts exactly the arguments equal to that text up to ASCII case, in both directions |
| Converter.Emit | pkg/escpos/converter.go:92-97 | a token fails exactly when it is read as a number and `ParseUint` rejects it |
| Converter.ResolveMnemonic | pkg/escpos/converter.go:51-64 | a token is read as a mnemonic exactly when the quote flag is clear and the token is a key; it then writes that key's byte |
| Converter.NumberShape | pkg/escpos/converter.go:92-94 | a token reaches the number rule only outside quotes, as itself, when it is not empty, not a key and has no quote at either end |
| Converter.QuoteFlag | pkg/escpos/converter.go:38-91 | the quote flag after each token: a lone quote and an opening fragment set it, a closing fragment clears it, and everything else leaves it as it was |
| Converter.InsideQuote | pkg/escpos/converter.go:44-59 | inside a quote an empty token writes one space, and any word without a closing quote writes its text and a space, even one that spells a mnemonic or a number |
| Converter.QuotedToken | pkg/escpos/converter.go:65-71 | `"x"` writes the text x and leaves the flag as it was, in either state |
| Converter.OpenFragment | pkg/escpos/converter.go:72-73 | outside a quote, `"x` with x not ending in a quote opens a quote |
| Converter.CloseFragment | pkg/escpos/converter.go:82-83 | `y"` with y not starting with a quote closes the quote |
| Converter.QuotedPhrase | pkg/escpos/converter.go:72-91 | `"x y"` writes x and y with nothing between them and leaves the flag clear |
| Converter.UnclosedQuote | pkg/escpos/converter.go:37-59 | a quote left open at the end of a line is no error; the line's last word is followed by a space |
| Converter.TokensFailure | pkg/escpos/converter.go:94-97 | a failing line reports one of its own tokens: not a key, rejected by `ParseUint` with the reported cause |
| Converter.RecordFailure | pkg/escpos/converter.go:31-37 | a failing record reports a token of the record as trimmed and split |
| Converter.RecordsFailure | pkg/escpos/converter.go:24-30 | a read error is reported only when the reader fails, a failing reader always ends in some error, and a number error always names a token `ParseUint` rejects |
| Converter.ConvertFailure | pkg/escpos/converter.go:21-109 | `Convert` has only two error sources, the reader's error and a number `ParseUint` rejects; a read error is reported only for a failing reader, and a failing reader always ends in some error |
| Converter.ReadErrorKeepsBytes | pkg/escpos/converter.go:24-30 | a failing reader gets the bytes of every complete record before the failure, then the read error |
| Converter.TailDropped | pkg/escpos/converter.go:24-28 | text after the last LF writes nothing: at end of input it is dropped without an error |
| Converter.DelimiterIsLF | pkg/escpos/converter.go:24 | the record delimiter is the table's LF byte, the character `\n` |
| Converter.ConvertLine | pkg/escpos/converter.go:23-31 | the first line of the input converts on its own, then the rest |
| Converter.ConvertAppend | pkg/escpos/converter.go:23-38 | text split after an LF converts as its two halves one after the other; nothing, not even the quote flag, carries across lines |
| Converter.ConvertConcat | pkg/escpos/converter.go:23-35 | complete records followed by more text convert record by record, then the text |
| Converter.ConvertRecordsAppend | pkg/escpos/converter.go:23-35 | converting records is a fold: two lists of records convert as their concatenation |
| Converter.ConvertTokensAppend | pkg/escpos/converter.go:39-107 | the tokens of a line convert piecewise, the second piece starting in the quote state the first piece left |
| Converter.ThenAssoc | pkg/escpos/converter.go:21-109 | writing conversions one after another is associative, so lines and tokens can be grouped freely |
| Converter.PaddedLine | pkg/escpos/converter.go:31 | indentation and the CR of a CRLF ending change nothing |
| Converter.ShortLine | pkg/escpos/converter.go:32-35 | a line holding a single character besides white space on either side writes nothing |
| Converter.WhiteLine | pkg/escpos/converter.go:31-35 | a line of white space alone writes nothing |
| Converter.CommentSkipped | pkg/escpos/converter.go:32-35 | a `'//` line writes nothing, whatever follows the marker |
| Converter.NumberLine | pkg/escpos/converter.go:31-106 | a line holding the decimal n writes nothing when n < 10, the byte n when 10 <= n <= 255, and a range error naming the token above |
| Converter.MnemonicLine | pkg/escpos/converter.go:60-64 | a line holding one mnemonic writes exactly that mnemonic's byte |
| Converter.NulLine | pkg/escpos/converter.go:92-97 | `NUL` falls through to the number rule and fails with a syntax error |
| Converter.ConvertSpelled | pkg/escpos/converter.go:37-106 | every byte sequence can be written as one line of mnemonics and hexadecimal numbers, and that line converts back to exactly those bytes |
| Converter.ConvertStream | pkg/escpos/converter.go:21-109 | the loop over the records writes exactly the bytes and returns exactly the error of the functional `Convert` |
| Converter.ConvertRecordStream | pkg/escpos/converter.go:31-107 | the loop over the tokens of one record appends exactly the bytes and error of the functional record conversion |
| Builder.FontLabels | pkg/escpos/builder.go:84-102 | only fonts 0-4, '0'-'4', 97 and 98 are named, and the rest get the warning; a number and its digit character get the same label, and fonts 3 and 4 are both labelled D |
| BuilderBytes.InitializePrinterBytes | pkg/escpos/builder.go:79-82 | the comment is skipped; the text converts to 1B followed by the text `@` |
| BuilderBytes.CharacterFontBytes | pkg/escpos/builder.go:84-104 | for every n, known font or not, the text converts to 1B, the text `M`, n |
| BuilderBytes.StrongBytes | pkg/escpos/builder.go:106-114 | converts to 1B, the text `E`, then 1 or 0 |
| BuilderBytes.JustificationBytes | pkg/escpos/builder.go:116-127 | left, center or centered, and right, in any letter case, convert to 1B, the text `a`, then 0, 1 or 2 |
| BuilderBytes.UnknownJustificationBytes | pkg/escpos/builder.go:128-130 | any other argument writes only an error comment and converts to nothing |
| BuilderBytes.HomeBytes | pkg/escpos/builder.go:133-141 | converts to 1D, the text `T`, then 1 or 0 |
| BuilderBytes.CutBytes | pkg/escpos/builder.go:145-153 | for n = 0, converts to 1D, the text `V`, then 0 (full cut) or 1 (partial cut) |
| BuilderBytes.FeedCutBytes | pkg/escpos/builder.go:154-163 | for n > 0, converts to 1D, the text `V`, 65 or 66, n; an n above 255 fails with a range error after the first three are written |
| BuilderBytes.CharacterSizeBytes | pkg/escpos/builder.go:166-175 | converts to 1D, the text `!`, and one byte 16*w + h of the clamped factors |
| BuilderBytes.CharacterSizeClamps | pkg/escpos/builder.go:167-172 | factors above 7 write the same text as 7, so (9, 9) and (7, 7) print the same |
| BuilderBytes.PrintFeedBytes | pkg/escpos/builder.go:212-218 | converts to 1B, the text `J`, n; the clamp to 255 never applies to a byte |
| BuilderBytes.PrintFeedLinesBytes | pkg/escpos/builder.go:220-226 | converts to 1B, the text `d`, n |
| BuilderPrint.PrintBytes | pkg/escpos/builder.go:187-210 | text without spaces converts back to its cells' text, with HT for every tab and LF for every line feed, and no LF after the last row |
| BuilderPrint.PrintExample | pkg/escpos/builder.go:187-210 | `A` tab `B` line feed `C` converts to `A`, 09, `B`, 0A, `C` |
| BuilderPrint.TrailingSpaceCell | pkg/escpos/builder.go:193-209 | `Print("a \nb")` writes `"a "` and ` LF` on its first row; that row converts to `a`, `LF` as text and a space, so no 0A is sent |
| BuilderSpacing.DefaultLineSpacingBytes | pkg/escpos/builder.go:177-180 | as written, converts to 1B 02 rather than the 1B 32 of "select default line spacing" |
| BuilderSpacing.LineSpacingBytes | pkg/escpos/builder.go:182-185 | as written, converts to 1B 03 n rather than the 1B 33 n of "set line spacing" |
| BuilderSpacing.DefaultLineSpacingCorrectedBytes | pkg/escpos/builder.go:177-180 | with the command character quoted, converts to 1B and the text `2`, which is 1B 32 for an ASCII encoder |
| BuilderSpacing.LineSpacingCorrectedBytes | pkg/escpos/builder.go:182-185 | with the command character quoted, converts to 1B, the text `3`, n, which is 1B 33 n for an ASCII encoder |
| QuoteSpace.PhraseSplit | pkg/escpos/converter.go:37 | a quoted literal of words splits into an opening fragment, the middle words and a closing fragment |
| QuoteSpace.InsideWords | pkg/escpos/converter.go:51-59 | inside a quote, every word up to the closing fragment is followed by exactly one space, except the last |
| QuoteSpace.PhraseAsWritten | pkg/escpos/converter.go:72-81 | as written, a quoted literal of words converts to the first word with no space after it, then the remaining words spaced |
| QuoteSpace.HelloWorldPhrase | pkg/escpos/converter.go:72-81 | as written, `"Hello World"` converts to `Hello` then `World` with no space between them |
| QuoteSpace.NoOpening | pkg/escpos/converter.go:39-106 | the corrected rule chain agrees with the source's on every token list in which no token opens a quote as the flag moves: lone quotes, whole quoted tokens, words inside a quote and closing fragments convert alike |
| QuoteSpace.OpeningDiffers | pkg/escpos/converter.go:72-81 | on a token that opens a quote the two differ: the corrected chain writes one more byte, the space |
| QuoteSpace.PhraseCorrected | pkg/escpos/converter.go:51-81 | corrected, a quoted literal of words converts to its words with exactly one space between each pair |
| QuoteSpace.HelloWorldCorrected | pkg/escpos/converter.go:72-81 | corrected, `"Hello World"` converts to `Hello`, 20, `World` |

## Left out

- Debug tracing: the `debug` flag and its `fmt.Printf` calls (converter.go:17 and its uses) do not affect the bytes written.
- Writer errors: every `Write` and `Fprint` result is discarded in the source, so the sink is an accumulated byte sequence with no error path.
- StringToAsciiBytes is not part of this model. It is the parameter `toAscii`, and no property of it is assumed, not even that it keeps the length.
- White space and case: `TrimSpace` removes only the six ASCII white-space bytes, and `ToLower` lowers only `A`-`Z`. Go's Unicode white space and Unicode case mapping are not modelled.
- `bufio` streaming: the reader is the whole text it delivers plus how it ends. `ConvertStream` therefore receives the records up front rather than one `ReadString` call at a time.
- `uint` is modelled as 64 bits wide. This is a modelling choice: Go's `uint` is 32 or 64 bits depending on the platform. Any width of 9 bits or more gives the same behaviour for `Cut`: an n above 255 produces IR that `Convert` rejects.
- The rest of the repository is not part of this model: the cobra commands, the TCP printing of `pkg/commands/print.go`, and the image conversion of `pkg/commands/convert.go` and `image/main.go`. These are I/O, foreign libraries and floating point.
- BuilderPrint.PrintBytes: it requires text without spaces. A space inside a cell is lost, as in the finding below. A cell that ends with a space is worse: its closing quote splits off as a lone `"` token, which sets the quote flag, so every later ` HT ` and ` LF` of that row is written as text (`TrailingSpaceCell`). A cell that starts with a space gives a lone `"` too, and its space is lost. The corrected rule chain of the finding does not change the lone-quote rule, so it would not make `Print` correct for such text either.
- Strconv.ParseByteDigits: it covers tokens without underscores. Go also accepts an underscore between digits after a base prefix (`0x_1F`); for such tokens the model follows `ParseUint` in its definition, but no lemma characterises them. The builder never writes one.
- BuilderBytes.UnknownJustificationBytes: it requires an argument without a line feed. An argument with a line feed ends the comment early, and the rest of the argument is read as IR.
- BuilderBytes.CutBytes and BuilderBytes.FeedCutBytes: each covers one side of the `n == 0` branch, and together they cover every n.

## Findings

| source | as written | input that shows it | evidently intended | confidence | as-written member | corrected member |
|---|---|---|---|---|---|---|
| pkg/escpos/builder.go:177-180 | `ESC 2`: the 2 is a number token and becomes the byte 02 | `DefaultLineSpacing()` converts to 1B 02 | 1B 32 (ESC 2, select default line spacing), written `ESC "2"` like the other methods | not executed | BuilderSpacing.DefaultLineSpacingBytes | BuilderSpacing.DefaultLineSpacingCorrectedBytes |
| pkg/escpos/builder.go:182-185 | `ESC 3 n`: the 3 is a number token and becomes the byte 03 | `LineSpacing(30)` converts to 1B 03 1E | 1B 33 n (ESC 3, set line spacing), written `ESC "3" n` | not executed | BuilderSpacing.LineSpacingBytes | BuilderSpacing.LineSpacingCorrectedBytes |
| pkg/escpos/converter.go:72-81 | the opening fragment `"x` writes x without the space the split removed, while every later word inside the quote gets one (converter.go:55-59) | `"Hello World"` converts to `HelloWorld` | `Hello World`: each word of a quoted literal followed by one space, except the last | not executed | QuoteSpace.HelloWorldPhrase | QuoteSpace.PhraseCorrected |

=== FILE: base.dfy ===
/** Shared vocabulary of the model: bytes, optional values and results.

    Text is Dafny's `string`; every character of a model string stands for
    one byte of the corresponding Go string, so Go's `len(s)` is `|s|`.
 */
module Base {

  /** One octet of the printer protocol (Go's `byte`). */
  type byte = b: int | 0 <= b < 256

  datatype Option<+T> = None | Some(value: T)

  datatype Result<+T, +E> = Ok(value: T) | Err(error: E)

  /** `parts` joined with `sep` between consecutive elements: `strings.Join`
      on text, and the byte layout of separated fields. */
  function Join<T>(parts: seq<seq<T>>, sep: T): seq<T>
    decreases |parts|
  {
    if |parts| == 0 then []
    else if |parts| == 1 then parts[0]
    else parts[0] + [sep] + Join(parts[1..], sep)
  }

  /** Concatenation of a sequence of strings. */
  function Concat(ss: seq<string>): (r: string)
    ensures |ss| == 1 ==> r == ss[0]
  {
    if |ss| == 0 then "" else ss[0] + Concat(ss[1..])
  }

  lemma {:induction false} ConcatAppend(ss: seq<string>, tt: seq<string>)
    ensures Concat(ss + tt) == Concat(ss) + Concat(tt)
    decreases |ss|
  {
    if |ss| == 0 {
      assert ss + tt == tt;
    } else {
      assert (ss + tt)[1..] == ss[1..] + tt;
      ConcatAppend(ss[1..], tt);
    }
  }
}

=== FILE: builder.dfy ===
/** The `builder` of `pkg/escpos/builder.go`. Each method of the `ESCPOS`
    interface writes IR text, which `Convert` turns into printer bytes:
    one `'//` comment line and one indented instruction line, except that
    an unknown justification writes only its error comment, and `Print`
    writes no comment but one indented line per row of its argument, every
    row but the last ended by ` LF`. A method is modelled as the text it
    writes; the source ignores the writer's errors, so they do not appear.

    The instruction lines are written here as their space-separated words
    (`Instruction(["ESC", "\"@\""])` is the source's `    ESC "@"`), and
    `Fprintf` with a trailing "\n" as `Println`.
 */
module Builder {
  import opened Base
  import opened Text
  import opened Strconv
  import opened Commands
  import opened Converter

  /** Go's `uint`, taken to be 64 bits wide (a modelling choice: Go makes
      it 32 or 64 bits depending on the platform). */
  type uint = n: int | 0 <= n < 0x1_0000_0000_0000_0000

  /** `fmt.Fprintln(out, s)`: the text followed by a line feed. */
  function Println(s: string): string
  {
    s + "\n"
  }

  /** A comment line: the `'//` marker, then the text. */
  function Comment(text: string): string
  {
    Println(CommentMarker + text)
  }

  /** An instruction line: four spaces of indentation, then the words
      separated by single spaces. */
  function Instruction(words: seq<string>): string
  {
    "    " + Join(words, ' ')
  }

  /** A word in double quotes: a string argument of the IR. */
  function Quote(x: string): string
  {
    "\"" + x + "\""
  }

  // ---------------------------------------------------------------------
  // The methods
  // ---------------------------------------------------------------------

  function InitializePrinter(): string
  {
    Comment(" Initialize printer") + Println(Instruction(["ESC", Quote("@")]))
  }

  /** The comment `CharacterFont` writes for font n: fonts A to D are
      selected by 0-4 or '0'-'4' (4 is labelled D as well), the special
      fonts by 97 and 98; anything else is flagged. */
  function FontComment(n: byte): (c: string)
    ensures '\n' !in c
  {
    if n == 0 || n == 48 then " Select Font A"
    else if n == 1 || n == 49 then " Select Font B"
    else if n == 2 || n == 50 then " Select Font C"
    else if n == 3 || n == 51 then " Select Font D"
    else if n == 4 || n == 52 then " Select Font D"
    else if n == 97 then " Select Special Font A"
    else if n == 98 then " Select Special Font B"
    else " WARNING: Select Unknown Font"
  }

  /** Only the listed fonts are named; a font number and its digit
      character get the same label, and fonts 3 and 4 share theirs. */
  lemma FontLabels(n: byte)
    ensures FontComment(n) == " WARNING: Select Unknown Font"
        <==> !(n <= 4 || 48 <= n <= 52 || n == 97 || n == 98)
    ensures n <= 4 ==> FontComment(n) == FontComment(n + 48)
    ensures FontComment(3) == FontComment(4)
  {
  }

  /** The instruction is written for every n, known font or not. */
  function CharacterFont(n: byte): string
  {
    Comment(FontComment(n)) + Println(Instruction(["ESC", Quote("M"), Decimal(n)]))
  }

  function Strong(enabled: bool): string
  {
    if enabled then
      Comment(" Emphasized mode on") + Println(Instruction(["ESC", Quote("E"), "1"]))
    else
      Comment(" Emphasized mode off") + Println(Instruction(["ESC", Quote("E"), "0"]))
  }

  /** The argument is matched after lower-casing; an unknown one writes only
      an error comment that repeats it. */
  function Justification(justification: string): string
  {
    var j := ToLower(justification);
    if j == "left" then
      Comment(" Left justification") + Println(Instruction(["ESC", Quote("a"), "0"]))
    else if j == "center" || j == "centered" then
      Comment(" Centered justification") + Println(Instruction(["ESC", Quote("a"), "1"]))
    else if j == "right" then
      Comment(" Right justification") + Println(Instruction(["ESC", Quote("a"), "2"]))
    else
      Comment(" ERROR: unknown justification: " + justification)
  }

  function Home(printFirst: bool): string
  {
    if printFirst then
      Comment(" Home, print first") + Println(Instruction(["GS", Quote("T"), "1"]))
    else
      Comment(" Home, reset print buffer") + Println(Instruction(["GS", Quote("T"), "0"]))
  }

  /** Function A of `GS V` for n = 0, function B (feed n, then cut) otherwise. */
  function Cut(n: uint, full: bool): string
  {
    if n == 0 then
      if full then
        Comment(" Cut Paper (full cut)") + Println(Instruction(["GS", Quote("V"), "0"]))
      else
        Comment(" Cut Paper (partial cut)") + Println(Instruction(["GS", Quote("V"), "1"]))
    else
      if full then
        Comment(" Feed and Cut Paper (full cut)") + Println(Instruction(["GS", Quote("V"), "65", Decimal(n)]))
      else
        Comment(" Feed and Cut Paper (partial cut)") + Println(Instruction(["GS", Quote("V"), "66", Decimal(n)]))
  }

  /** A size factor, clamped to the largest one the printer knows (7, an
      eightfold magnification). */
  function MaxFactor(n: byte): byte
  {
    if n > 7 then 7 else n
  }

  /** Both factors are clamped to 7; the comment shows the magnification
      (factor + 1) and the instruction writes the two factors as the digits
      of one hexadecimal literal. */
  function CharacterSize(width: byte, height: byte): string
  {
    Magnification(MaxFactor(width), MaxFactor(height))
  }

  /** The lines `CharacterSize` writes once the factors are clamped. */
  function Magnification(w: byte, h: byte): string
  {
    Comment(" Character magnification Wx" + Decimal(w + 1) + " Hx" + Decimal(h + 1))
      + Println(Instruction(["GS", Quote("!"), "0x" + Decimal(w) + Decimal(h)]))
  }

  function DefaultLineSpacing(): string
  {
    Comment(" Default Line Spacing") + Println(Instruction(["ESC", "2"]))
  }

  function LineSpacing(n: byte): string
  {
    Comment(" Set Line Spacing") + Println(Instruction(["ESC", "3", Decimal(n)]))
  }

  /** `DefaultLineSpacing` and `LineSpacing` as the other methods write a
      command character: in double quotes, so that the character itself is
      sent (`ESC "2"` is 1B 32), not a number (`ESC 2` is 1B 02). */
  function DefaultLineSpacingCorrected(): string
  {
    Comment(" Default Line Spacing") + Println(Instruction(["ESC", Quote("2")]))
  }

  function LineSpacingCorrected(n: byte): string
  {
    Comment(" Set Line Spacing") + Println(Instruction(["ESC", Quote("3"), Decimal(n)]))
  }

  /** `Print`: the text is split at LF into rows and each row at tab into
      cells. Every row is indented; a cell is written in double quotes
      unless it is empty, and consecutive cells are separated by ` HT `.
      Each row but the first starts a new line after ` LF`, and the last
      one is ended by a line feed. */
  function Print(line: string): string
  {
    Rows(Split(line, '\n')) + "\n"
  }

  function Rows(rows: seq<string>): string
    decreases |rows|
  {
    if |rows| == 0 then ""
    else if |rows| == 1 then Row(rows[0])
    else Row(rows[0]) + " LF\n" + Rows(rows[1..])
  }

  function Row(row: string): string
  {
    "    " + Cells(Split(row, '\t'))
  }

  function Cells(cells: seq<string>): string
    decreases |cells|
  {
    if |cells| == 0 then ""
    else if |cells| == 1 then Cell(cells[0])
    else Cell(cells[0]) + " HT " + Cells(cells[1..])
  }

  function Cell(t: string): string
  {
    if |t| > 0 then Quote(t) else ""
  }

  /** The clamp to 255 can never apply to an 8-bit argument. */
  function PrintFeed(n: byte): string
  {
    var m := if n > 255 then 255 else n;
    Comment(" Print and feed") + Println(Instruction(["ESC", Quote("J"), Decimal(m)]))
  }

  function PrintFeedLines(n: byte): string
  {
    var m := if n > 255 then 255 else n;
    Comment(" Print and feed lines") + Println(Instruction(["ESC", Quote("d"), Decimal(m)]))
  }
}

=== FILE: builder_bytes.dfy ===
/** What the text of each builder method converts to: the printer bytes
    of `Convert` applied to the lines the method writes, read to the end
    without a read error. Every method but an unknown justification sends
    exactly one ESC/POS command. */
module BuilderBytes {
  import opened Base
  import opened Text
  import opened Strconv
  import opened Commands
  import opened Converter
  import opened Builder
  import opened BuilderLines

  /** `InitializePrinter` sends ESC "@". */
  lemma InitializePrinterBytes(toAscii: string -> seq<byte>)
    ensures Convert(Source(InitializePrinter(), Eof), toAscii) == Succeeded([0x1B] + toAscii("@"))
  {
    ModeComments();
    var ws := ["ESC", Quote("@")];
    InstructionWords("@", 0, "ESC");
    CommentedInstruction(" Initialize printer", ws, toAscii);
    MnemonicToken("ESC", toAscii);
    QuotedToken(Outside, "@", toAscii);
    Tokens2("ESC", Quote("@"), toAscii);
    SeqUnit(toAscii("@"));
  }

  /** `CharacterFont(n)` sends ESC "M" n for every n, whatever its comment says. */
  lemma CharacterFontBytes(n: byte, toAscii: string -> seq<byte>)
    ensures Convert(Source(CharacterFont(n), Eof), toAscii) == Succeeded([0x1B] + toAscii("M") + [n])
  {
    CommentedCommand(FontComment(n), "ESC", "M", n, toAscii);
  }

  /** `Strong` sends ESC "E" 1 to turn emphasis on and ESC "E" 0 to turn it off. */
  lemma StrongBytes(enabled: bool, toAscii: string -> seq<byte>)
    ensures Convert(Source(Strong(enabled), Eof), toAscii)
         == Succeeded([0x1B] + toAscii("E") + [if enabled then 1 else 0])
  {
    ModeComments();
    DecimalLiterals();
    if enabled {
      CommentedCommand(" Emphasized mode on", "ESC", "E", 1, toAscii);
    } else {
      CommentedCommand(" Emphasized mode off", "ESC", "E", 0, toAscii);
    }
  }


  /** The argument of ESC "a" for each justification name the builder
      knows, in lower case: 0 left, 1 centred, 2 right. */
  const Justifications: map<string, byte> := map["left" := 0, "center" := 1, "centered" := 1, "right" := 2]

  /** The comment written for each justification code. */
  function JustificationComment(code: byte): (c: string)
    ensures '\n' !in c
  {
    JustificationComments();
    if code == 0 then " Left justification"
    else if code == 1 then " Centered justification"
    else " Right justification"
  }

  /** The text `Justification` writes for a known name: its comment and
      ESC "a" with its code. */
  lemma KnownJustificationText(justification: string)
    requires ToLower(justification) in Justifications
    ensures var code := Justifications[ToLower(justification)];
      Justification(justification)
      == Comment(JustificationComment(code)) + Println(Instruction(["ESC", Quote("a"), Decimal(code)]))
  {
    DecimalLiterals();
  }

  /** The text `Justification` writes for any other name: one comment line. */
  lemma UnknownJustificationText(justification: string)
    requires ToLower(justification) !in Justifications
    ensures Justification(justification) == CommentMarker + (" ERROR: unknown justification: " + justification) + "\n"
  {
  }

  /** A known justification, in any letter case, sends ESC "a" with its code. */
  lemma JustificationBytes(justification: string, toAscii: string -> seq<byte>)
    requires ToLower(justification) in Justifications
    ensures Convert(Source(Justification(justification), Eof), toAscii)
         == Succeeded([0x1B] + toAscii("a") + [Justifications[ToLower(justification)]])
  {
    var code := Justifications[ToLower(justification)];
    KnownJustificationText(justification);
    CommentedCommand(JustificationComment(code), "ESC", "a", code, toAscii);
  }

  /** Any other justification writes only a comment, so nothing is sent,
      as long as the argument itself holds no line feed. */
  lemma UnknownJustificationBytes(justification: string, toAscii: string -> seq<byte>)
    requires ToLower(justification) !in Justifications && '\n' !in justification
    ensures Convert(Source(Justification(justification), Eof), toAscii) == Succeeded([])
  {
    UnknownJustificationText(justification);
    LineOfTwo(" ERROR: unknown justification: ", justification);
    CommentSkipped(" ERROR: unknown justification: " + justification, toAscii);
  }

  /** `Home` sends GS "T" 1 to print the buffer first and GS "T" 0 to discard it. */
  lemma HomeBytes(printFirst: bool, toAscii: string -> seq<byte>)
    ensures Convert(Source(Home(printFirst), Eof), toAscii)
         == Succeeded([0x1D] + toAscii("T") + [if printFirst then 1 else 0])
  {
    HomeComments();
    DecimalLiterals();
    if printFirst {
      CommentedCommand(" Home, print first", "GS", "T", 1, toAscii);
    } else {
      CommentedCommand(" Home, reset print buffer", "GS", "T", 0, toAscii);
    }
  }

  /** `Cut(0, full)` sends GS "V" 0 (full) or GS "V" 1 (partial): function A
      of the cut command. */
  lemma CutBytes(n: uint, full: bool, toAscii: string -> seq<byte>)
    requires n == 0
    ensures Convert(Source(Cut(n, full), Eof), toAscii) == Succeeded([0x1D] + toAscii("V") + [if full then 0 else 1])
  {
    CutComments();
    DecimalLiterals();
    if full {
      CommentedCommand(" Cut Paper (full cut)", "GS", "V", 0, toAscii);
    } else {
      CommentedCommand(" Cut Paper (partial cut)", "GS", "V", 1, toAscii);
    }
  }

  /** A positive `n` sends GS "V" 65 n (full) or GS "V" 66 n (partial):
      function B, feed and cut. An n above 255, which the source writes
      unchecked, stops the conversion with a range error after the 65 or 66. */
  lemma FeedCutBytes(n: uint, full: bool, toAscii: string -> seq<byte>)
    requires n > 0
    ensures Convert(Source(Cut(n, full), Eof), toAscii)
         == if n <= MaxByte then Succeeded([0x1D] + toAscii("V") + [if full then 65 else 66, n as byte])
            else Converted([0x1D] + toAscii("V") + [if full then 65 else 66], Some(BadNumber(Decimal(n), Range)))
  {
    CutComments();
    DecimalLiterals();
    var c := if full then " Feed and Cut Paper (full cut)" else " Feed and Cut Paper (partial cut)";
    var f := if full then 65 else 66;
    FeedCutCommand(c, f, n, toAscii);
  }

  /** `PrintFeed(n)` sends ESC "J" n. */
  lemma PrintFeedBytes(n: byte, toAscii: string -> seq<byte>)
    ensures Convert(Source(PrintFeed(n), Eof), toAscii) == Succeeded([0x1B] + toAscii("J") + [n])
  {
    FeedComments();
    CommentedCommand(" Print and feed", "ESC", "J", n, toAscii);
  }

  /** `PrintFeedLines(n)` sends ESC "d" n. */
  lemma PrintFeedLinesBytes(n: byte, toAscii: string -> seq<byte>)
    ensures Convert(Source(PrintFeedLines(n), Eof), toAscii) == Succeeded([0x1B] + toAscii("d") + [n])
  {
    FeedComments();
    CommentedCommand(" Print and feed lines", "ESC", "d", n, toAscii);
  }

  /** `CharacterSize(width, height)` sends GS "!" with each factor clamped
      to 7: the clamped width in the high nibble and the clamped height in
      the low nibble of the argument byte. */
  lemma CharacterSizeBytes(width: byte, height: byte, toAscii: string -> seq<byte>)
    ensures Convert(Source(CharacterSize(width, height), Eof), toAscii)
         == Succeeded([0x1D] + toAscii("!") + [(16 * MaxFactor(width) + MaxFactor(height)) as byte])
  {
    SizeLine(MaxFactor(width), MaxFactor(height), toAscii);
  }

  /** Widths and heights above 7 are sent as 7. */
  lemma CharacterSizeClamps(width: byte, height: byte)
    ensures CharacterSize(width, height) == CharacterSize(MaxFactor(width), MaxFactor(height))
  {
  }
}

=== FILE: builder_lines.dfy ===
/** How the lines the builder writes convert: a comment line sends
    nothing, an instruction line sends its words as tokens, and the word
    shapes the builder uses (a mnemonic, a quoted string, a decimal number,
    a two-digit hexadecimal literal) each send one known piece.

    The short lemmas about literal texts (`ModeComments` to `FeedComments`,
    `DecimalLiterals`, `LineOfTwo`) model nothing of their own: they hand
    the verifier facts about constants that it finds slowly inside the
    larger proofs that use them. */
module BuilderLines {
  import opened Base
  import opened Text
  import opened Strconv
  import opened Commands
  import opened Converter
  import opened Builder

  // ---------------------------------------------------------------------
  // Comment and instruction lines
  // ---------------------------------------------------------------------

  /** A word that `Convert` reads back as one token. */
  predicate Plain(w: string)
  {
    |w| >= 1 && ' ' !in w && '\n' !in w && !IsSpace(w[|w| - 1])
  }

  /** A comment line followed by an instruction line converts to the
      instruction's tokens: the comment writes nothing. */
  lemma CommentedInstruction(c: string, ws: seq<string>, toAscii: string -> seq<byte>)
    requires '\n' !in c
    requires |ws| >= 1 && ws[0] in Table
    requires forall i :: 0 <= i < |ws| ==> Plain(ws[i])
    ensures Convert(Source(Comment(c) + Println(Instruction(ws)), Eof), toAscii)
         == ConvertTokens(Outside, ws, toAscii)
  {
    var line := Instruction(ws);
    ConvertAppend(Comment(c), Println(line), Eof, toAscii);
    CommentSkipped(c, toAscii);
    InstructionLine(ws, toAscii);
    SeqUnit(ConvertTokens(Outside, ws, toAscii).bytes);
  }

  /** An instruction line converts to its words as tokens. */
  lemma InstructionLine(ws: seq<string>, toAscii: string -> seq<byte>)
    requires |ws| >= 1 && ws[0] in Table
    requires forall i :: 0 <= i < |ws| ==> Plain(ws[i])
    ensures Convert(Source(Println(Instruction(ws)), Eof), toAscii) == ConvertTokens(Outside, ws, toAscii)
  {
    InstructionOneLine(ws);
    OneLine(Instruction(ws), toAscii);
    InstructionRecord(ws, toAscii);
  }

  lemma InstructionOneLine(ws: seq<string>)
    requires forall i :: 0 <= i < |ws| ==> Plain(ws[i])
    ensures '\n' !in Instruction(ws)
  {
    JoinAvoids(ws, ' ', '\n');
  }

  /** Tokens that leave the flag clear convert one after another. */
  lemma Tokens2(a: string, b: string, toAscii: string -> seq<byte>)
    requires StateAfter(Outside, [a]) == Outside
    ensures ConvertTokens(Outside, [a, b], toAscii)
         == ConvertTokens(Outside, [a], toAscii).Then(ConvertTokens(Outside, [b], toAscii))
  {
    assert [a] + [b] == [a, b];
    ConvertTokensAppend(Outside, [a], [b], toAscii);
  }

  lemma Tokens3(a: string, b: string, c: string, toAscii: string -> seq<byte>)
    requires StateAfter(Outside, [a]) == Outside && StateAfter(Outside, [b]) == Outside
    ensures ConvertTokens(Outside, [a, b, c], toAscii)
         == ConvertTokens(Outside, [a], toAscii).Then(ConvertTokens(Outside, [b], toAscii).Then(ConvertTokens(Outside, [c], toAscii)))
  {
    assert [a] + [b, c] == [a, b, c];
    ConvertTokensAppend(Outside, [a], [b, c], toAscii);
    Tokens2(b, c, toAscii);
  }

  lemma Tokens4(a: string, b: string, c: string, d: string, toAscii: string -> seq<byte>)
    requires StateAfter(Outside, [a]) == Outside && StateAfter(Outside, [b]) == Outside
    requires StateAfter(Outside, [c]) == Outside
    ensures ConvertTokens(Outside, [a, b, c, d], toAscii)
         == ConvertTokens(Outside, [a], toAscii).Then(ConvertTokens(Outside, [b], toAscii).Then(
              ConvertTokens(Outside, [c], toAscii).Then(ConvertTokens(Outside, [d], toAscii))))
  {
    assert [a] + [b, c, d] == [a, b, c, d];
    ConvertTokensAppend(Outside, [a], [b, c, d], toAscii);
    Tokens3(b, c, d, toAscii);
  }

  /** The shape of most instructions: a mnemonic, a one-character string
      and a byte-sized number. */
  lemma CommandTokens(m: string, x: string, n: byte, toAscii: string -> seq<byte>)
    requires m in Table
    ensures ConvertTokens(Outside, [m, Quote(x), Decimal(n)], toAscii) == Succeeded([Table[m]] + toAscii(x) + [n])
  {
    MnemonicToken(m, toAscii);
    QuotedToken(Outside, x, toAscii);
    NumberToken(n, toAscii);
    Tokens3(m, Quote(x), Decimal(n), toAscii);
    SeqAssoc([Table[m]], toAscii(x), [n]);
  }

  /** The words the builder writes read back as single tokens. */
  lemma InstructionWords(x: string, n: nat, m: string)
    requires ' ' !in x && '\n' !in x
    requires m in Table
    ensures Plain(Quote(x)) && Plain(Decimal(n)) && Plain(m)
  {
    MnemonicShape(m);
    assert m[|m| - 1] == m[|m| - 1];
    var q := Quote(x);
    assert forall i :: 0 <= i < |q| ==> q[i] == '"' || q[i] in x;
  }

  /** Two pieces of one line make one line. */
  lemma LineOfTwo(a: string, b: string)
    requires '\n' !in a && '\n' !in b
    ensures '\n' !in a + b
  {
    assert forall i :: 0 <= i < |a + b| ==> (a + b)[i] in a || (a + b)[i] in b;
  }

  lemma PlainCommand(m: string, x: string, n: nat)
    requires ' ' !in x && '\n' !in x && m in Table
    ensures forall i :: 0 <= i < 3 ==> Plain([m, Quote(x), Decimal(n)][i])
  {
    InstructionWords(x, n, m);
    var ws := [m, Quote(x), Decimal(n)];
    assert ws[0] == m && ws[1] == Quote(x) && ws[2] == Decimal(n);
  }

  /** A commented instruction of a mnemonic, a quoted string and a byte. */
  lemma CommentedCommand(c: string, m: string, x: string, n: byte, toAscii: string -> seq<byte>)
    requires '\n' !in c && ' ' !in x && '\n' !in x
    requires m in Table
    ensures Convert(Source(Comment(c) + Println(Instruction([m, Quote(x), Decimal(n)])), Eof), toAscii)
         == Succeeded([Table[m]] + toAscii(x) + [n])
  {
    PlainCommand(m, x, n);
    CommentedInstruction(c, [m, Quote(x), Decimal(n)], toAscii);
    CommandTokens(m, x, n, toAscii);
  }

  // ---------------------------------------------------------------------
  // Feed and cut: four words
  // ---------------------------------------------------------------------

  /** GS "V" f converts ahead of whatever the last token gives. */
  lemma FeedCutChain(f: nat, n: nat, toAscii: string -> seq<byte>)
    requires f <= MaxByte
    ensures ConvertTokens(Outside, ["GS", Quote("V"), Decimal(f), Decimal(n)], toAscii)
         == Succeeded([0x1D] + toAscii("V") + [f as byte]).Then(ConvertTokens(Outside, [Decimal(n)], toAscii))
  {
    MnemonicToken("GS", toAscii);
    QuotedToken(Outside, "V", toAscii);
    NumberToken(f, toAscii);
    NumberToken(n, toAscii);
    Tokens4("GS", Quote("V"), Decimal(f), Decimal(n), toAscii);
    var last := ConvertTokens(Outside, [Decimal(n)], toAscii).bytes;
    SeqAssoc(toAscii("V"), [f as byte], last);
    SeqAssoc([0x1D], toAscii("V") + [f as byte], last);
    SeqAssoc([0x1D], toAscii("V"), [f as byte]);
  }

  /** The tokens of GS "V" f n (function B of the cut command): the feed
      amount n must itself fit in a byte, or conversion stops after f with
      a range error. */
  lemma FeedCutTokens(f: nat, n: nat, toAscii: string -> seq<byte>)
    requires f <= MaxByte
    ensures ConvertTokens(Outside, ["GS", Quote("V"), Decimal(f), Decimal(n)], toAscii)
         == if n <= MaxByte then Succeeded([0x1D] + toAscii("V") + [f as byte, n as byte])
            else Converted([0x1D] + toAscii("V") + [f as byte], Some(BadNumber(Decimal(n), Range)))
  {
    FeedCutChain(f, n, toAscii);
    NumberToken(n, toAscii);
    var head := [0x1D] + toAscii("V");
    if n <= MaxByte {
      SeqAssoc(head, [f as byte], [n as byte]);
    } else {
      SeqUnit(head + [f as byte]);
    }
  }

  lemma PlainFeedCut(f: nat, n: nat)
    ensures forall i :: 0 <= i < 4 ==> Plain(["GS", Quote("V"), Decimal(f), Decimal(n)][i])
  {
    var ws := ["GS", Quote("V"), Decimal(f), Decimal(n)];
    InstructionWords("V", f, "GS");
    InstructionWords("V", n, "GS");
    forall i | 0 <= i < |ws|
      ensures Plain(ws[i])
    {
      if i == 3 {
        assert ws[i] == Decimal(n);
      } else if i == 2 {
        assert ws[i] == Decimal(f);
      }
    }
  }

  /** A commented GS "V" f n instruction line. */
  lemma FeedCutCommand(c: string, f: nat, n: nat, toAscii: string -> seq<byte>)
    requires '\n' !in c && f <= MaxByte
    ensures Convert(Source(Comment(c) + Println(Instruction(["GS", Quote("V"), Decimal(f), Decimal(n)])), Eof), toAscii)
         == if n <= MaxByte then Succeeded([0x1D] + toAscii("V") + [f as byte, n as byte])
            else Converted([0x1D] + toAscii("V") + [f as byte], Some(BadNumber(Decimal(n), Range)))
  {
    var ws := ["GS", Quote("V"), Decimal(f), Decimal(n)];
    PlainFeedCut(f, n);
    CommentedInstruction(c, ws, toAscii);
    FeedCutTokens(f, n, toAscii);
  }

  // Each comment the builder writes is one line.

  lemma ModeComments()
    ensures '\n' !in " Initialize printer"
    ensures '\n' !in " Emphasized mode on" && '\n' !in " Emphasized mode off"
  {
  }

  lemma HomeComments()
    ensures '\n' !in " Home, print first" && '\n' !in " Home, reset print buffer"
  {
  }

  lemma JustificationComments()
    ensures '\n' !in " Left justification" && '\n' !in " Centered justification" && '\n' !in " Right justification"
  {
  }

  lemma CutComments()
    ensures '\n' !in " Cut Paper (full cut)" && '\n' !in " Cut Paper (partial cut)"
    ensures '\n' !in " Feed and Cut Paper (full cut)" && '\n' !in " Feed and Cut Paper (partial cut)"
  {
  }

  lemma FeedComments()
    ensures '\n' !in " Default Line Spacing" && '\n' !in " Set Line Spacing"
    ensures '\n' !in " Print and feed" && '\n' !in " Print and feed lines"
  {
  }

  /** The numbers the builder writes as literals are the `%d` forms of their values. */
  lemma DecimalLiterals()
    ensures Decimal(0) == "0" && Decimal(1) == "1" && Decimal(2) == "2" && Decimal(3) == "3"
    ensures Decimal(65) == "65" && Decimal(66) == "66"
  {
  }

  // ---------------------------------------------------------------------
  // Character size: two factors in one hexadecimal literal
  // ---------------------------------------------------------------------

  /** The literal `0x%d%d` of two single digits is one plain word of four
      characters. */
  lemma HexWord(a: nat, b: nat)
    requires a < 10 && b < 10
    ensures "0x" + Decimal(a) + Decimal(b) == "0x" + [DigitChar(a), DigitChar(b)]
    ensures Plain("0x" + [DigitChar(a), DigitChar(b)])
  {
    assert Decimal(a) == [DigitChar(a)] && Decimal(b) == [DigitChar(b)];
    SeqAssoc("0x", [DigitChar(a)], [DigitChar(b)]);
    var w := "0x" + [DigitChar(a), DigitChar(b)];
    assert w == ['0', 'x', DigitChar(a), DigitChar(b)];
  }

  /** The magnification comment is one line. */
  lemma SizeComment(a: nat, b: nat)
    ensures '\n' !in " Character magnification Wx" + Decimal(a) + " Hx" + Decimal(b)
  {
    assert '\n' !in " Character magnification Wx" && '\n' !in " Hx";
    assert '\n' !in Decimal(a) && '\n' !in Decimal(b);
    LineOfTwo(" Character magnification Wx", Decimal(a));
    LineOfTwo(" Character magnification Wx" + Decimal(a), " Hx");
    LineOfTwo(" Character magnification Wx" + Decimal(a) + " Hx", Decimal(b));
  }

  /** GS "!" with the two factors as hexadecimal digits sends the factor
      pair as one byte: width in the high nibble, height in the low one. */
  lemma SizeTokens(a: nat, b: nat, toAscii: string -> seq<byte>)
    requires a < 8 && b < 8
    ensures ConvertTokens(Outside, ["GS", Quote("!"), "0x" + [DigitChar(a), DigitChar(b)]], toAscii)
         == Succeeded([0x1D] + toAscii("!") + [(16 * a + b) as byte])
  {
    MnemonicToken("GS", toAscii);
    QuotedToken(Outside, "!", toAscii);
    HexPairToken(a, b, toAscii);
    Tokens3("GS", Quote("!"), "0x" + [DigitChar(a), DigitChar(b)], toAscii);
    SeqAssoc([0x1D], toAscii("!"), [(16 * a + b) as byte]);
  }

  lemma PlainSize(a: nat, b: nat)
    requires a < 10 && b < 10
    ensures forall i :: 0 <= i < 3 ==> Plain(["GS", Quote("!"), "0x" + [DigitChar(a), DigitChar(b)]][i])
  {
    HexWord(a, b);
    InstructionWords("!", 0, "GS");
    var ws := ["GS", Quote("!"), "0x" + [DigitChar(a), DigitChar(b)]];
    assert ws[0] == "GS" && ws[1] == Quote("!") && ws[2] == "0x" + [DigitChar(a), DigitChar(b)];
  }

  /** A commented GS "!" line with two factors below 8. */
  lemma SizeCommand(c: string, a: nat, b: nat, toAscii: string -> seq<byte>)
    requires '\n' !in c && a < 8 && b < 8
    ensures Convert(Source(Comment(c) + Println(Instruction(["GS", Quote("!"), "0x" + Decimal(a) + Decimal(b)])), Eof), toAscii)
         == Succeeded([0x1D] + toAscii("!") + [(16 * a + b) as byte])
  {
    HexWord(a, b);
    PlainSize(a, b);
    CommentedInstruction(c, ["GS", Quote("!"), "0x" + [DigitChar(a), DigitChar(b)]], toAscii);
    SizeTokens(a, b, toAscii);
  }

  /** The two lines `CharacterSize` writes for factors below 8. */
  lemma SizeLine(w: byte, h: byte, toAscii: string -> seq<byte>)
    requires w < 8 && h < 8
    ensures Convert(Source(Magnification(w, h), Eof), toAscii) == Succeeded([0x1D] + toAscii("!") + [(16 * w + h) as byte])
  {
    SizeComment(w + 1, h + 1);
    SizeCommand(" Character magnification Wx" + Decimal(w + 1) + " Hx" + Decimal(h + 1), w, h, toAscii);
  }
}

=== FILE: builder_print.dfy ===
/** What `Print` sends to the printer. For text without spaces, the
    converter reads the builder's output back as the text itself: each
    cell's characters, HT where the text had a tab and LF where it had a
    line feed. Empty cells and empty rows write nothing of their own. A
    cell that ends with a space breaks this: the rest of its row is read
    as quoted text.

    `Blanks`, `Regroup`, `LfSplit`, `TwoRows`, `TrailingSpaceWords` and
    `QuotedCellWords` model nothing of their own: they
    state facts about literals and concatenations that the verifier finds
    slowly inside the larger proofs that use them. */
module BuilderPrint {
  import opened Base
  import opened Text
  import opened Commands
  import opened Converter
  import opened Builder

  // ---------------------------------------------------------------------
  // The bytes the text stands for
  // ---------------------------------------------------------------------

  /** The bytes of one cell: its text, and nothing for an empty cell. */
  function CellText(t: string, toAscii: string -> seq<byte>): seq<byte>
  {
    if |t| > 0 then toAscii(t) else []
  }

  /** The bytes of each cell. */
  function CellTexts(cells: seq<string>, toAscii: string -> seq<byte>): (r: seq<seq<byte>>)
    ensures |r| == |cells|
    decreases |cells|
  {
    if |cells| == 0 then [] else [CellText(cells[0], toAscii)] + CellTexts(cells[1..], toAscii)
  }

  /** The bytes of a row: its cells with HT between them. */
  function RowText(row: string, toAscii: string -> seq<byte>): seq<byte>
  {
    Join(CellTexts(Split(row, '\t'), toAscii), Table["HT"])
  }

  /** The bytes of each row. */
  function RowTexts(rows: seq<string>, toAscii: string -> seq<byte>): (r: seq<seq<byte>>)
    ensures |r| == |rows|
    decreases |rows|
  {
    if |rows| == 0 then [] else [RowText(rows[0], toAscii)] + RowTexts(rows[1..], toAscii)
  }

  /** The bytes of a text: its rows with LF between them. */
  function PrintedText(line: string, toAscii: string -> seq<byte>): seq<byte>
  {
    Join(RowTexts(Split(line, '\n'), toAscii), Table["LF"])
  }

  // ---------------------------------------------------------------------
  // Words that leave the quote flag clear
  // ---------------------------------------------------------------------

  /** A word that leaves the quote flag clear and, unless it is empty, can
      start or end a line without being trimmed or taken for a comment: it
      opens no quote that it does not also close. */
  predicate Neutral(w: string)
  {
    w == "" || (|w| >= 2 && ' ' !in w && !IsSpace(w[0]) && !IsSpace(w[|w| - 1]) && w[0] != '\''
                && (w[0] == '"' ==> w[|w| - 1] == '"'))
  }

  lemma NeutralFlag(w: string)
    requires Neutral(w)
    ensures StateAfter(Outside, [w]) == Outside
  {
    QuoteFlag(Outside, w);
    assert StateAfter(Outside, [w]) == StateAfter(Next(Outside, Resolve(Outside, w)), []);
  }

  /** The flag is clear after any number of neutral words. */
  lemma {:induction false} NeutralState(ws: seq<string>)
    requires forall i :: 0 <= i < |ws| ==> Neutral(ws[i])
    ensures StateAfter(Outside, ws) == Outside
    decreases |ws|
  {
    if |ws| > 0 {
      NeutralFlag(ws[0]);
      assert StateAfter(Outside, [ws[0]]) == StateAfter(Next(Outside, Resolve(Outside, ws[0])), []);
      NeutralState(ws[1..]);
    }
  }

  /** The indentation and the line end the builder writes are white space. */
  lemma Blanks()
    ensures AllSpace("    ") && AllSpace(" ") && AllSpace("\n")
  {
    assert forall i :: 0 <= i < 4 ==> "    "[i] == ' ';
  }

  lemma ThenNothing(a: Converted)
    ensures a.Then(Succeeded([])) == a
  {
    if a.error.None? {
      SeqUnit(a.bytes);
    }
  }

  /** A line of neutral words converts to its words, whatever white space
      surrounds it and wherever the empty words are: empty words at the
      ends only add white space, which is trimmed, and empty words inside
      write nothing. */
  lemma {:induction false} NeutralLine(pad: string, ws: seq<string>, tail: string, toAscii: string -> seq<byte>)
    requires AllSpace(pad) && AllSpace(tail)
    requires |ws| >= 1 && forall i :: 0 <= i < |ws| ==> Neutral(ws[i])
    ensures ConvertRecord(pad + Join(ws, ' ') + tail, toAscii) == ConvertTokens(Outside, ws, toAscii)
    decreases |ws|
  {
    var n := |ws|;
    if ws[0] == "" && n == 1 {
      BlankLine(pad, tail, toAscii);
    } else if ws[0] == "" {
      LeadingGap(pad, ws, tail, toAscii);
      NeutralLine(pad + " ", ws[1..], tail, toAscii);
    } else if ws[n - 1] == "" {
      TrailingGap(pad, ws, tail, toAscii);
      NeutralLine(pad, ws[..n - 1], " " + tail, toAscii);
    } else {
      SolidLine(pad, ws, tail, toAscii);
    }
  }

  /** A line of white space around one empty word writes nothing. */
  lemma BlankLine(pad: string, tail: string, toAscii: string -> seq<byte>)
    requires AllSpace(pad) && AllSpace(tail)
    ensures ConvertRecord(pad + Join([""], ' ') + tail, toAscii) == ConvertTokens(Outside, [""], toAscii)
  {
    BlankText(pad, tail);
    var r := pad + tail;
    assert ConvertRecord(r, toAscii) == Succeeded([]);
    EmptyWord(toAscii);
  }

  lemma BlankText(pad: string, tail: string)
    requires AllSpace(pad) && AllSpace(tail)
    ensures pad + Join([""], ' ') + tail == pad + tail
    ensures TrimSpace(pad + tail) == ""
  {
    assert Join([""], ' ') == "";
    assert pad + "" + tail == pad + tail;
    TrimSpaceOf(pad, "", tail);
  }

  /** An empty word outside a quote writes nothing and keeps the flag clear. */
  lemma EmptyWord(toAscii: string -> seq<byte>)
    ensures ConvertTokens(Outside, [""], toAscii) == Succeeded([])
    ensures StateAfter(Outside, [""]) == Outside
  {
    assert Resolve(Outside, "") == Blank;
    SingleToken(Outside, "", toAscii);
    assert StateAfter(Outside, [""]) == StateAfter(Next(Outside, Blank), []);
  }

  /** Regrouping a concatenation of four strings. */
  lemma Regroup(a: string, b: string, c: string, d: string)
    ensures a + (b + c) + d == a + b + (c + d)
  {
  }

  /** An empty first word moves its space into the indentation and writes
      nothing. */
  lemma LeadingGap(pad: string, ws: seq<string>, tail: string, toAscii: string -> seq<byte>)
    requires AllSpace(pad)
    requires |ws| >= 2 && ws[0] == ""
    ensures AllSpace(pad + " ")
    ensures pad + Join(ws, ' ') + tail == (pad + " ") + Join(ws[1..], ' ') + tail
    ensures ConvertTokens(Outside, ws, toAscii) == ConvertTokens(Outside, ws[1..], toAscii)
  {
    LeadingGapText(pad, ws, tail);
    LeadingGapTokens(ws, toAscii);
  }

  lemma LeadingGapText(pad: string, ws: seq<string>, tail: string)
    requires AllSpace(pad)
    requires |ws| >= 2 && ws[0] == ""
    ensures AllSpace(pad + " ")
    ensures pad + Join(ws, ' ') + tail == (pad + " ") + Join(ws[1..], ' ') + tail
  {
    var j := Join(ws[1..], ' ');
    assert Join(ws, ' ') == "" + [' '] + j;
    assert "" + [' '] + j == " " + j;
    Regroup(pad, " ", j, tail);
    AllSpaceConcat(pad, " ");
  }

  lemma LeadingGapTokens(ws: seq<string>, toAscii: string -> seq<byte>)
    requires |ws| >= 2 && ws[0] == ""
    ensures ConvertTokens(Outside, ws, toAscii) == ConvertTokens(Outside, ws[1..], toAscii)
  {
    var rest := ConvertTokens(Outside, ws[1..], toAscii);
    assert ConvertTokens(Outside, ws, toAscii) == Succeeded([]).Then(rest);
    SeqUnit(rest.bytes);
  }

  /** An empty last word moves its space into the tail and writes nothing,
      since the words before it leave the flag clear. */
  lemma TrailingGap(pad: string, ws: seq<string>, tail: string, toAscii: string -> seq<byte>)
    requires AllSpace(tail)
    requires |ws| >= 2 && ws[|ws| - 1] == ""
    requires forall i :: 0 <= i < |ws| ==> Neutral(ws[i])
    ensures AllSpace(" " + tail)
    ensures pad + Join(ws, ' ') + tail == pad + Join(ws[..|ws| - 1], ' ') + (" " + tail)
    ensures ConvertTokens(Outside, ws, toAscii) == ConvertTokens(Outside, ws[..|ws| - 1], toAscii)
  {
    TrailingGapText(pad, ws, tail);
    TrailingGapTokens(ws, toAscii);
  }

  lemma TrailingGapText(pad: string, ws: seq<string>, tail: string)
    requires AllSpace(tail)
    requires |ws| >= 2 && ws[|ws| - 1] == ""
    ensures AllSpace(" " + tail)
    ensures pad + Join(ws, ' ') + tail == pad + Join(ws[..|ws| - 1], ' ') + (" " + tail)
  {
    var init := ws[..|ws| - 1];
    SeqSnoc(ws);
    JoinSnoc(init, "", ' ');
    var j := Join(init, ' ');
    assert Join(ws, ' ') == j + " ";
    Regroup(pad, j, " ", tail);
    AllSpaceConcat(" ", tail);
  }

  lemma TrailingGapTokens(ws: seq<string>, toAscii: string -> seq<byte>)
    requires |ws| >= 2 && ws[|ws| - 1] == ""
    requires forall i :: 0 <= i < |ws| ==> Neutral(ws[i])
    ensures ConvertTokens(Outside, ws, toAscii) == ConvertTokens(Outside, ws[..|ws| - 1], toAscii)
  {
    var init := ws[..|ws| - 1];
    SeqSnoc(ws);
    assert forall i :: 0 <= i < |init| ==> init[i] == ws[i];
    GapAfter(init, toAscii);
  }

  lemma GapAfter(init: seq<string>, toAscii: string -> seq<byte>)
    requires forall i :: 0 <= i < |init| ==> Neutral(init[i])
    ensures ConvertTokens(Outside, init + [""], toAscii) == ConvertTokens(Outside, init, toAscii)
  {
    var a := ConvertTokens(Outside, init, toAscii);
    NeutralState(init);
    EmptyWord(toAscii);
    ConvertTokensAppend(Outside, init, [""], toAscii);
    assert ConvertTokens(Outside, init + [""], toAscii) == a.Then(Succeeded([]));
    ThenNothing(a);
  }

  // ---------------------------------------------------------------------
  // The words of a row
  // ---------------------------------------------------------------------

  /** The words of the row text `Cells(cells)`: each cell's word, with "HT"
      between consecutive cells. */
  function RowWords(cells: seq<string>): seq<string>
    decreases |cells|
  {
    if |cells| == 0 then []
    else if |cells| == 1 then [Cell(cells[0])]
    else [Cell(cells[0]), "HT"] + RowWords(cells[1..])
  }

  /** The row text is its words separated by single spaces. */
  lemma {:induction false} CellsJoin(cells: seq<string>)
    requires |cells| >= 1
    ensures Cells(cells) == Join(RowWords(cells), ' ')
    decreases |cells|
  {
    if |cells| >= 2 {
      var rest := RowWords(cells[1..]);
      var ws := [Cell(cells[0]), "HT"] + rest;
      CellsJoin(cells[1..]);
      assert |rest| >= 1;
      assert ws[1..] == ["HT"] + rest && (["HT"] + rest)[1..] == rest;
      assert Join(ws, ' ') == Cell(cells[0]) + " " + ("HT" + " " + Join(rest, ' '));
    }
  }

  /** A cell without spaces is one neutral word. */
  lemma CellWord(t: string)
    requires ' ' !in t
    ensures Neutral(Cell(t))
    ensures '\n' !in t ==> '\n' !in Cell(t)
  {
  }

  /** An empty cell writes nothing, any other cell writes its text; either
      leaves the flag clear. */
  lemma CellToken(t: string, toAscii: string -> seq<byte>)
    ensures ConvertTokens(Outside, [Cell(t)], toAscii) == Succeeded(CellText(t, toAscii))
    ensures StateAfter(Outside, [Cell(t)]) == Outside
  {
    if |t| > 0 {
      QuotedToken(Outside, t, toAscii);
    } else {
      EmptyWord(toAscii);
    }
  }

  /** The words of a row of space-free cells are neutral and write the
      cells' bytes with HT between them. */
  lemma {:induction false} RowTokens(cells: seq<string>, toAscii: string -> seq<byte>)
    requires |cells| >= 1 && forall i :: 0 <= i < |cells| ==> ' ' !in cells[i] && '\n' !in cells[i]
    ensures var ws := RowWords(cells);
      forall i :: 0 <= i < |ws| ==> Neutral(ws[i]) && '\n' !in ws[i]
    ensures ConvertTokens(Outside, RowWords(cells), toAscii) == Succeeded(Join(CellTexts(cells, toAscii), Table["HT"]))
    decreases |cells|
  {
    if |cells| == 1 {
      CellWord(cells[0]);
      CellToken(cells[0], toAscii);
    } else {
      var rest := cells[1..];
      assert forall i :: 0 <= i < |rest| ==> rest[i] == cells[i + 1];
      RowTokens(rest, toAscii);
      LeadingCell(cells[0], RowWords(rest), Join(CellTexts(rest, toAscii), Table["HT"]), toAscii);
      CellTextsStep(cells, toAscii);
    }
  }

  /** One more cell in front of a row's words. */
  lemma LeadingCell(t: string, ws: seq<string>, bs: seq<byte>, toAscii: string -> seq<byte>)
    requires ' ' !in t && '\n' !in t
    requires forall i :: 0 <= i < |ws| ==> Neutral(ws[i]) && '\n' !in ws[i]
    requires ConvertTokens(Outside, ws, toAscii) == Succeeded(bs)
    ensures var vs := [Cell(t), "HT"] + ws;
      forall i :: 0 <= i < |vs| ==> Neutral(vs[i]) && '\n' !in vs[i]
    ensures ConvertTokens(Outside, [Cell(t), "HT"] + ws, toAscii) == Succeeded(CellText(t, toAscii) + [Table["HT"]] + bs)
  {
    LeadingWords(t, ws);
    CellPair(t, toAscii);
    ConvertTokensAppend(Outside, [Cell(t), "HT"], ws, toAscii);
  }

  lemma LeadingWords(t: string, ws: seq<string>)
    requires ' ' !in t && '\n' !in t
    requires forall i :: 0 <= i < |ws| ==> Neutral(ws[i]) && '\n' !in ws[i]
    ensures var vs := [Cell(t), "HT"] + ws;
      forall i :: 0 <= i < |vs| ==> Neutral(vs[i]) && '\n' !in vs[i]
  {
    CellWord(t);
    MnemonicShape("HT");
    var vs := [Cell(t), "HT"] + ws;
    assert vs[0] == Cell(t) && vs[1] == "HT" && forall i :: 2 <= i < |vs| ==> vs[i] == ws[i - 2];
  }

  /** A cell and the "HT" after it. */
  lemma CellPair(t: string, toAscii: string -> seq<byte>)
    requires ' ' !in t
    ensures ConvertTokens(Outside, [Cell(t), "HT"], toAscii) == Succeeded(CellText(t, toAscii) + [Table["HT"]])
    ensures StateAfter(Outside, [Cell(t), "HT"]) == Outside
  {
    var c := Cell(t);
    CellToken(t, toAscii);
    MnemonicToken("HT", toAscii);
    assert [c, "HT"] == [c] + ["HT"];
    ConvertTokensAppend(Outside, [c], ["HT"], toAscii);
    assert StateAfter(Outside, [c, "HT"]) == StateAfter(StateAfter(Outside, [c]), ["HT"]) by {
      assert [c, "HT"][1..] == ["HT"];
    }
  }

  lemma CellTextsStep(cells: seq<string>, toAscii: string -> seq<byte>)
    requires |cells| >= 2
    ensures Join(CellTexts(cells, toAscii), Table["HT"])
         == CellText(cells[0], toAscii) + [Table["HT"]] + Join(CellTexts(cells[1..], toAscii), Table["HT"])
  {
    var ts := CellTexts(cells, toAscii);
    assert ts[1..] == CellTexts(cells[1..], toAscii);
  }

  // ---------------------------------------------------------------------
  // Rows and the whole text
  // ---------------------------------------------------------------------

  /** The cells of a row hold no character the row does not hold. */
  lemma CellsAvoid(row: string, cells: seq<string>, c: char)
    requires cells == Split(row, '\t') && c !in row
    ensures forall i :: 0 <= i < |cells| ==> c !in cells[i]
  {
    forall i | 0 <= i < |cells|
      ensures c !in cells[i]
    {
      if c in cells[i] {
        JoinMember(cells, '\t', i, c);
      }
    }
  }

  /** A row of space-free text, as the last line and followed by ` LF`. */
  lemma RowRecord(row: string, toAscii: string -> seq<byte>)
    requires ' ' !in row && '\n' !in row
    ensures '\n' !in Row(row) && '\n' !in Row(row) + " LF"
    ensures ConvertRecord(Row(row) + "\n", toAscii) == Succeeded(RowText(row, toAscii))
    ensures ConvertRecord(Row(row) + " LF\n", toAscii) == Succeeded(RowText(row, toAscii) + [Table["LF"]])
  {
    var cells := Split(row, '\t');
    CellsAvoid(row, cells, ' ');
    CellsAvoid(row, cells, '\n');
    assert forall i :: 0 <= i < |cells| ==> ' ' !in cells[i] && '\n' !in cells[i];
    RowTokens(cells, toAscii);
    var ws := RowWords(cells);
    CellsJoin(cells);
    JoinAvoids(ws, ' ', '\n');
    assert "    " + Join(ws, ' ') + "\n" == Row(row) + "\n";
    Blanks();
    NeutralLine("    ", ws, "\n", toAscii);
    RowWithLf(ws, toAscii);
  }

  lemma RowWithLf(ws: seq<string>, toAscii: string -> seq<byte>)
    requires |ws| >= 1 && forall i :: 0 <= i < |ws| ==> Neutral(ws[i]) && '\n' !in ws[i]
    ensures '\n' !in "    " + Join(ws, ' ') + " LF"
    ensures ConvertRecord("    " + Join(ws, ' ') + " LF\n", toAscii)
         == ConvertTokens(Outside, ws, toAscii).Then(Succeeded([Table["LF"]]))
  {
    var vs := ws + ["LF"];
    LfWords(ws);
    Blanks();
    NeutralLine("    ", vs, "\n", toAscii);
    LfTokens(ws, toAscii);
  }

  /** Appending the word "LF" to neutral words. */
  lemma LfWords(ws: seq<string>)
    requires |ws| >= 1 && forall i :: 0 <= i < |ws| ==> Neutral(ws[i]) && '\n' !in ws[i]
    ensures forall i :: 0 <= i < |ws + ["LF"]| ==> Neutral((ws + ["LF"])[i])
    ensures '\n' !in "    " + Join(ws, ' ') + " LF"
    ensures "    " + Join(ws + ["LF"], ' ') + "\n" == "    " + Join(ws, ' ') + " LF\n"
  {
    var vs := ws + ["LF"];
    JoinSnoc(ws, "LF", ' ');
    JoinAvoids(ws, ' ', '\n');
    MnemonicShape("LF");
    assert forall i :: 0 <= i < |ws| ==> vs[i] == ws[i];
  }

  lemma LfTokens(ws: seq<string>, toAscii: string -> seq<byte>)
    requires forall i :: 0 <= i < |ws| ==> Neutral(ws[i])
    ensures ConvertTokens(Outside, ws + ["LF"], toAscii)
         == ConvertTokens(Outside, ws, toAscii).Then(Succeeded([Table["LF"]]))
  {
    MnemonicToken("LF", toAscii);
    NeutralState(ws);
    ConvertTokensAppend(Outside, ws, ["LF"], toAscii);
  }

  /** Rows of space-free text convert to their bytes with LF between them. */
  lemma {:induction false} ConvertRows(rows: seq<string>, toAscii: string -> seq<byte>)
    requires |rows| >= 1 && forall i :: 0 <= i < |rows| ==> ' ' !in rows[i] && '\n' !in rows[i]
    ensures Convert(Source(Rows(rows) + "\n", Eof), toAscii) == Succeeded(Join(RowTexts(rows, toAscii), Table["LF"]))
    decreases |rows|
  {
    var r := rows[0];
    RowRecord(r, toAscii);
    if |rows| == 1 {
      OneLine(Row(r), toAscii);
    } else {
      var rest := rows[1..];
      assert forall i :: 0 <= i < |rest| ==> rest[i] == rows[i + 1];
      ConvertRows(rest, toAscii);
      RowsText(rows);
      LfSplit(Row(r), Rows(rest));
      ConvertLine(Row(r) + " LF", Rows(rest) + "\n", Eof, toAscii);
      RowTextsStep(rows, toAscii);
    }
  }

  lemma RowsText(rows: seq<string>)
    requires |rows| >= 2
    ensures Rows(rows) + "\n" == Row(rows[0]) + " LF" + "\n" + (Rows(rows[1..]) + "\n")
  {
    var a, b := Row(rows[0]), Rows(rows[1..]);
    assert Rows(rows) == a + " LF\n" + b;
    LfSplit(a, b);
  }

  lemma LfSplit(a: string, b: string)
    ensures a + " LF\n" + b + "\n" == a + " LF" + "\n" + (b + "\n")
    ensures a + " LF" + "\n" == a + " LF\n"
  {
  }

  lemma RowTextsStep(rows: seq<string>, toAscii: string -> seq<byte>)
    requires |rows| >= 2
    ensures Join(RowTexts(rows, toAscii), Table["LF"])
         == RowText(rows[0], toAscii) + [Table["LF"]] + Join(RowTexts(rows[1..], toAscii), Table["LF"])
  {
    var ts := RowTexts(rows, toAscii);
    assert ts[1..] == RowTexts(rows[1..], toAscii);
  }

  /** `Print` of text without spaces sends exactly the text: the bytes of
      its cells, HT for each tab and LF for each line feed. */
  lemma PrintBytes(line: string, toAscii: string -> seq<byte>)
    requires ' ' !in line
    ensures Convert(Source(Print(line), Eof), toAscii) == Succeeded(PrintedText(line, toAscii))
  {
    var rows := Split(line, '\n');
    forall i | 0 <= i < |rows|
      ensures ' ' !in rows[i]
    {
      if ' ' in rows[i] {
        JoinMember(rows, '\n', i, ' ');
      }
    }
    ConvertRows(rows, toAscii);
  }

  /** A tab and a line feed: `A`, HT, `B`, LF, `C`, and no LF at the end. */
  lemma PrintExample(toAscii: string -> seq<byte>)
    ensures Convert(Source(Print("A\tB\nC"), Eof), toAscii)
         == Succeeded(toAscii("A") + [0x09] + toAscii("B") + [0x0A] + toAscii("C"))
  {
    PrintBytes("A\tB\nC", toAscii);
    PrintExampleText(toAscii);
  }

  lemma PrintExampleText(toAscii: string -> seq<byte>)
    ensures PrintedText("A\tB\nC", toAscii) == toAscii("A") + [0x09] + toAscii("B") + [0x0A] + toAscii("C")
  {
    ExampleRows();
    SeparatorCodes();
    var r0 := RowText("A\tB", toAscii);
    var r1 := RowText("C", toAscii);
    ExampleFirstRow(toAscii);
    ExampleLastRow(toAscii);
    assert RowTexts(["A\tB", "C"], toAscii) == [r0, r1];
    assert Join([r0, r1], 0x0A) == r0 + [0x0A] + r1;
  }

  /** The two separators `Print` writes. */
  lemma SeparatorCodes()
    ensures Table["HT"] == 0x09 && Table["LF"] == 0x0A
  {
  }

  lemma ExampleRows()
    ensures Split("A\tB\nC", '\n') == ["A\tB", "C"]
  {
    assert Join(["A\tB", "C"], '\n') == "A\tB\nC";
    assert '\n' !in "A\tB" && '\n' !in "C";
    SplitJoin(["A\tB", "C"], '\n');
  }

  lemma ExampleFirstRow(toAscii: string -> seq<byte>)
    ensures RowText("A\tB", toAscii) == toAscii("A") + [0x09] + toAscii("B")
  {
    ExampleCells();
    SeparatorCodes();
    var cs := CellTexts(["A", "B"], toAscii);
    assert cs == [toAscii("A"), toAscii("B")];
    assert Join(cs, 0x09) == toAscii("A") + [0x09] + toAscii("B");
  }

  lemma ExampleCells()
    ensures Split("A\tB", '\t') == ["A", "B"]
  {
    assert Join(["A", "B"], '\t') == "A\tB";
    assert '\t' !in "A" && '\t' !in "B";
    SplitJoin(["A", "B"], '\t');
  }

  lemma ExampleLastRow(toAscii: string -> seq<byte>)
    ensures RowText("C", toAscii) == toAscii("C")
  {
    assert Join(["C"], '\t') == "C";
    assert '\t' !in "C";
    SplitJoin(["C"], '\t');
    assert CellTexts(["C"], toAscii) == [toAscii("C")];
  }

  // ---------------------------------------------------------------------
  // A cell that ends in a space
  // ---------------------------------------------------------------------

  /** `Print("a \nb")`: the cell `a ` is written `"a "`, whose closing quote
      splits off as a lone `"` token. A lone quote only sets the quote flag,
      so the ` LF` after it is written as the text `LF` and a space, and no
      line feed reaches the printer. */
  lemma TrailingSpaceCell(toAscii: string -> seq<byte>)
    ensures Print("a \nb") == "    \"a \" LF\n    \"b\"\n"
    ensures Convert(Source(Print("a \nb"), Eof), toAscii)
         == Succeeded(toAscii("a") + toAscii("LF") + [Space] + toAscii("b"))
  {
    TrailingSpaceText();
    TrailingSpaceConvert(toAscii);
  }

  lemma TrailingSpaceConvert(toAscii: string -> seq<byte>)
    ensures Convert(Source("    \"a \" LF\n    \"b\"\n", Eof), toAscii)
         == Succeeded(toAscii("a") + toAscii("LF") + [Space] + toAscii("b"))
  {
    TwoRows();
    TrailingSpaceRecord(toAscii);
    QuotedCellRecord(toAscii);
    LineThenRest("    \"a \" LF", "    \"b\"\n", toAscii("a") + toAscii("LF") + [Space], toAscii("b"), toAscii);
  }

  /** A record that succeeds, followed by text that converts without error. */
  lemma LineThenRest(first: string, rest: string, a: seq<byte>, b: seq<byte>, toAscii: string -> seq<byte>)
    requires '\n' !in first
    requires ConvertRecord(first + "\n", toAscii) == Succeeded(a)
    requires Convert(Source(rest, Eof), toAscii) == Succeeded(b)
    ensures Convert(Source(first + "\n" + rest, Eof), toAscii) == Succeeded(a + b)
  {
    ConvertLine(first, rest, Eof, toAscii);
  }

  lemma TwoRows()
    ensures '\n' !in "    \"a \" LF"
    ensures "    \"a \" LF" + "\n" == "    \"a \" LF\n"
    ensures "    \"a \" LF" + "\n" + "    \"b\"\n" == "    \"a \" LF\n    \"b\"\n"
  {
  }

  lemma TrailingSpaceText()
    ensures Print("a \nb") == "    \"a \" LF\n    \"b\"\n"
  {
    TrailingSpaceRows();
    OneCellRow("a ");
    OneCellRow("b");
    assert Rows(["a ", "b"]) == Row("a ") + " LF\n" + Rows(["b"]);
  }

  lemma TrailingSpaceRows()
    ensures Split("a \nb", '\n') == ["a ", "b"]
  {
    assert Join(["a ", "b"], '\n') == "a \nb";
    assert '\n' !in "a " && '\n' !in "b";
    SplitJoin(["a ", "b"], '\n');
  }

  /** A row of one non-empty cell is written as that cell, quoted. */
  lemma OneCellRow(t: string)
    requires |t| > 0 && '\t' !in t
    ensures Row(t) == "    \"" + t + "\""
  {
    assert Join([t], '\t') == t;
    SplitJoin([t], '\t');
  }

  /** The first row: the opening fragment, the lone quote, then `LF` read
      inside the quote. */
  lemma TrailingSpaceRecord(toAscii: string -> seq<byte>)
    ensures ConvertRecord("    \"a \" LF\n", toAscii) == Succeeded(toAscii("a") + toAscii("LF") + [Space])
  {
    var ws := ["\"a", "\"", "LF"];
    TrailingSpaceWords();
    assert AllSpace("    ") && AllSpace("\n");
    SolidLine("    ", ws, "\n", toAscii);
    TrailingSpaceTokens(toAscii);
  }

  lemma TrailingSpaceWords()
    ensures "    " + Join(["\"a", "\"", "LF"], ' ') + "\n" == "    \"a \" LF\n"
  {
    var ws := ["\"a", "\"", "LF"];
    assert ws[1..] == ["\"", "LF"] && ws[1..][1..] == ["LF"];
    assert Join(ws, ' ') == "\"a \" LF";
  }

  lemma TrailingSpaceTokens(toAscii: string -> seq<byte>)
    ensures ConvertTokens(Outside, ["\"a", "\"", "LF"], toAscii) == Succeeded(toAscii("a") + toAscii("LF") + [Space])
  {
    var ws := ["\"a", "\"", "LF"];
    assert "\"a" == "\"" + "a";
    OpenFragment("a");
    assert ws[1..] == ["\"", "LF"] && ws[1..][1..] == ["LF"];
    InsideQuote("LF", toAscii);
    assert ConvertTokens(Inside, ["LF"], toAscii) == Succeeded(toAscii("LF") + [Space]);
    assert ConvertTokens(Inside, ["\"", "LF"], toAscii) == Succeeded(toAscii("LF") + [Space]);
  }

  /** The second row: one quoted cell. */
  lemma QuotedCellRecord(toAscii: string -> seq<byte>)
    ensures Convert(Source("    \"b\"\n", Eof), toAscii) == Succeeded(toAscii("b"))
  {
    var line := "    \"b\"";
    assert '\n' !in line && line + "\n" == "    \"b\"\n";
    OneLine(line, toAscii);
    QuotedCellTokens(toAscii);
  }

  lemma QuotedCellTokens(toAscii: string -> seq<byte>)
    ensures ConvertRecord("    \"b\"\n", toAscii) == Succeeded(toAscii("b"))
  {
    var ws := ["\"b\""];
    QuotedCellWords();
    assert AllSpace("    ") && AllSpace("\n");
    SolidLine("    ", ws, "\n", toAscii);
    QuotedToken(Outside, "b", toAscii);
  }

  lemma QuotedCellWords()
    ensures "    " + Join(["\"b\""], ' ') + "\n" == "    \"b\"\n"
    ensures "\"b\"" == "\"" + "b" + "\""
  {
  }
}

=== FILE: builder_spacing.dfy ===
/** The two line-spacing methods send the numbers 2 and 3 where ESC/POS
    expects the characters '2' and '3': `ESC 2` converts to 1B 02 and
    `ESC 3 n` to 1B 03 n, while "select default line spacing" is 1B 32 and
    "set line spacing" is 1B 33 n. The corrected texts quote the command
    character, as every other method of the builder does. */
module BuilderSpacing {
  import opened Base
  import opened Text
  import opened Strconv
  import opened Commands
  import opened Converter
  import opened Builder
  import opened BuilderLines

  /** `DefaultLineSpacing` as written sends 1B 02, which is not ESC 2
      (1B 32). */
  lemma DefaultLineSpacingBytes(toAscii: string -> seq<byte>)
    ensures Convert(Source(DefaultLineSpacing(), Eof), toAscii) == Succeeded([0x1B, 0x02])
    ensures Convert(Source(DefaultLineSpacing(), Eof), toAscii) != Succeeded([0x1B, 0x32])
  {
    var ws := DefaultSpacingText();
    FeedComments();
    CommentedInstruction(" Default Line Spacing", ws, toAscii);
    DefaultSpacingTokens(toAscii);
  }

  /** The words of `ESC 2`, each read back as one token. */
  lemma DefaultSpacingText() returns (ws: seq<string>)
    ensures ws == ["ESC", Decimal(2)] && DefaultLineSpacing() == Comment(" Default Line Spacing") + Println(Instruction(ws))
    ensures |ws| >= 1 && ws[0] in Table && forall i :: 0 <= i < |ws| ==> Plain(ws[i])
  {
    DecimalLiterals();
    InstructionWords("", 2, "ESC");
    ws := ["ESC", Decimal(2)];
  }

  lemma DefaultSpacingTokens(toAscii: string -> seq<byte>)
    ensures ConvertTokens(Outside, ["ESC", Decimal(2)], toAscii) == Succeeded([0x1B, 0x02])
  {
    MnemonicToken("ESC", toAscii);
    NumberToken(2, toAscii);
    Tokens2("ESC", Decimal(2), toAscii);
  }

  /** `LineSpacing(n)` as written sends 1B 03 n, which is not ESC 3 n
      (1B 33 n). */
  lemma LineSpacingBytes(n: byte, toAscii: string -> seq<byte>)
    ensures Convert(Source(LineSpacing(n), Eof), toAscii) == Succeeded([0x1B, 0x03, n])
    ensures Convert(Source(LineSpacing(n), Eof), toAscii) != Succeeded([0x1B, 0x33, n])
  {
    var ws := SpacingText(n);
    FeedComments();
    CommentedInstruction(" Set Line Spacing", ws, toAscii);
    SpacingTokens(n, toAscii);
  }

  /** The words of `ESC 3 n`, each read back as one token. */
  lemma SpacingText(n: byte) returns (ws: seq<string>)
    ensures ws == ["ESC", Decimal(3), Decimal(n)] && LineSpacing(n) == Comment(" Set Line Spacing") + Println(Instruction(ws))
    ensures |ws| >= 1 && ws[0] in Table && forall i :: 0 <= i < |ws| ==> Plain(ws[i])
  {
    DecimalLiterals();
    InstructionWords("", 3, "ESC");
    InstructionWords("", n, "ESC");
    ws := ["ESC", Decimal(3), Decimal(n)];
  }

  lemma SpacingTokens(n: byte, toAscii: string -> seq<byte>)
    ensures ConvertTokens(Outside, ["ESC", Decimal(3), Decimal(n)], toAscii) == Succeeded([0x1B, 0x03, n])
  {
    MnemonicToken("ESC", toAscii);
    NumberToken(3, toAscii);
    NumberToken(n, toAscii);
    Tokens3("ESC", Decimal(3), Decimal(n), toAscii);
  }

  /** The corrected `DefaultLineSpacing` sends ESC and the character '2':
      1B 32 when '2' is sent as its ASCII code. */
  lemma DefaultLineSpacingCorrectedBytes(toAscii: string -> seq<byte>)
    ensures Convert(Source(DefaultLineSpacingCorrected(), Eof), toAscii) == Succeeded([0x1B] + toAscii("2"))
    ensures toAscii("2") == [0x32] ==> Convert(Source(DefaultLineSpacingCorrected(), Eof), toAscii) == Succeeded([0x1B, 0x32])
  {
    FeedComments();
    var ws := ["ESC", Quote("2")];
    InstructionWords("2", 0, "ESC");
    CommentedInstruction(" Default Line Spacing", ws, toAscii);
    QuotedCharTokens(toAscii);
  }

  lemma QuotedCharTokens(toAscii: string -> seq<byte>)
    ensures ConvertTokens(Outside, ["ESC", Quote("2")], toAscii) == Succeeded([0x1B] + toAscii("2"))
  {
    MnemonicToken("ESC", toAscii);
    QuotedToken(Outside, "2", toAscii);
    Tokens2("ESC", Quote("2"), toAscii);
  }

  /** The corrected `LineSpacing(n)` sends ESC, the character '3' and n:
      1B 33 n when '3' is sent as its ASCII code. */
  lemma LineSpacingCorrectedBytes(n: byte, toAscii: string -> seq<byte>)
    ensures Convert(Source(LineSpacingCorrected(n), Eof), toAscii) == Succeeded([0x1B] + toAscii("3") + [n])
    ensures toAscii("3") == [0x33] ==> Convert(Source(LineSpacingCorrected(n), Eof), toAscii) == Succeeded([0x1B, 0x33, n])
  {
    FeedComments();
    CommentedCommand(" Set Line Spacing", "ESC", "3", n, toAscii);
  }
}

=== FILE: commands.dfy ===
/** The mnemonic table of `pkg/escpos/commands.go`: thirteen ESC/POS control
    codes, each named by its ASCII mnemonic and bound to one byte.
 */
module Commands {
  import opened Base
  import opened Text
  import Strconv

  /** Mnemonic to byte: the ASCII control codes the IR names (transmission
      control, tab, line and page feeds, escape and the separators) and the
      space. "NUL" is not a key. */
  const Table: map<string, byte> := map[
    "EOT" := 0x04, "ENQ" := 0x05, "HT"  := 0x09, "DLE" := 0x10,
    "LF"  := 0x0A, "FF"  := 0x0C, "CR"  := 0x0D, "DC4" := 0x14,
    "CAN" := 0x18, "ESC" := 0x1B, "FS"  := 0x1C, "GS"  := 0x1D,
    "SP"  := 0x20
  ]

  /** The record delimiter of the converter is the byte of the "LF" entry. */
  const Delimiter: char := Table["LF"] as char

  /** The thirteen mnemonics, and nothing else, are keys of the table. */
  lemma KeyCases(m: string)
    requires m in Table
    ensures m == "EOT" || m == "ENQ" || m == "HT" || m == "DLE" || m == "LF" || m == "FF" || m == "CR"
         || m == "DC4" || m == "CAN" || m == "ESC" || m == "FS" || m == "GS" || m == "SP"
  {
  }

  /** The byte named by each mnemonic, read back: the inverse of the table. */
  function NameOf(b: byte): (r: Option<string>)
    ensures r.Some? ==> r.value in Table && Table[r.value] == b
  {
    match b
    case 0x04 => Some("EOT")
    case 0x05 => Some("ENQ")
    case 0x09 => Some("HT")
    case 0x10 => Some("DLE")
    case 0x0A => Some("LF")
    case 0x0C => Some("FF")
    case 0x0D => Some("CR")
    case 0x14 => Some("DC4")
    case 0x18 => Some("CAN")
    case 0x1B => Some("ESC")
    case 0x1C => Some("FS")
    case 0x1D => Some("GS")
    case 0x20 => Some("SP")
    case _ => None
  }

  lemma NameOfCode(m: string)
    requires m in Table
    ensures NameOf(Table[m]) == Some(m)
  {
    KeyCases(m);
  }

  /** Mnemonics with different names stand for different bytes. */
  lemma TableInjective(a: string, b: string)
    requires a in Table && b in Table
    requires Table[a] == Table[b]
    ensures a == b
  {
    NameOfCode(a);
    NameOfCode(b);
  }

  /** Every mnemonic is at least two characters long, holds no quote, no
      white space and no apostrophe, and is not a numeric literal. So a line
      holding one mnemonic is never skipped as too short or as a comment, and
      a mnemonic token is never mistaken for a quote fragment or a number. */
  lemma MnemonicShape(m: string)
    requires m in Table
    ensures |m| >= 2
    ensures '"' !in m && '\'' !in m
    ensures forall i :: 0 <= i < |m| ==> !IsSpace(m[i])
    ensures 'A' <= m[0] <= 'Z'
    ensures Strconv.ParseByte(m).Err?
  {
    KeyCases(m);
  }

  /** No mnemonic stands for byte 0: a missing key is never confused with a
      zero byte. "NUL" in particular is not a mnemonic. */
  lemma NoZeroCode(m: string)
    ensures m in Table ==> Table[m] != 0
    ensures "NUL" !in Table
  {
  }

  /** The keys are exactly the thirteen mnemonics. */
  lemma TableKeys()
    ensures Table.Keys == {"EOT", "ENQ", "HT", "DLE", "LF", "FF", "CR", "DC4", "CAN", "ESC", "FS", "GS", "SP"}
  {
    forall m | m in Table
      ensures m in {"EOT", "ENQ", "HT", "DLE", "LF", "FF", "CR", "DC4", "CAN", "ESC", "FS", "GS", "SP"}
    {
      KeyCases(m);
    }
  }
}

=== FILE: converter.dfy ===
/** `Convert` of `pkg/escpos/converter.go`: IR text in, ESC/POS bytes out.

    The reader is the whole text it delivers plus how it ends (clean end of
    input or a read failure); the writer is the byte sequence written so far.
    `StringToAsciiBytes` is not part of this model: it is the parameter
    `toAscii`, about which nothing is assumed.
 */
module Converter {
  import opened Base
  import opened Text
  import opened Strconv
  import opened Commands

  /** How the text source ends after delivering its data. */
  datatype Ending = Eof | ReadError

  datatype Source = Source(data: string, end: Ending)

  /** The errors `Convert` returns: a reader error, or a number token that
      `ParseUint` rejects, with that token. */
  datatype ConvertError = ReadFailed | BadNumber(token: string, cause: NumError)

  /** The bytes written to the sink and the error returned, if any. Bytes
      written before an error stay written. */
  datatype Converted = Converted(bytes: seq<byte>, error: Option<ConvertError>)
  {
    /** This conversion followed by `next`, unless this one already failed. */
    function Then(next: Converted): (r: Converted)
      ensures error.Some? ==> r == this
      ensures error.None? ==> r.bytes == bytes + next.bytes && r.error == next.error
    {
      if error.Some? then this else Converted(bytes + next.bytes, next.error)
    }
  }

  function Succeeded(bytes: seq<byte>): Converted
  {
    Converted(bytes, None)
  }

  /** The single space written inside quotes (`[]byte(" ")`). */
  const Space: byte := 0x20

  /** Lines starting with this marker are comments. */
  const CommentMarker: string := "'//"

  /** The per-line `inQuote` flag. */
  datatype QuoteState = Outside | Inside

  /** The branch of the converter's rule chain that a token takes. */
  datatype Token =
    | LoneQuote                 // a token that is exactly `"`
    | Gap                       // an empty token inside a quote
    | Blank                     // an empty token outside a quote
    | MidQuote(word: string)    // inside a quote, no closing quote
    | Mnemonic(code: byte)      // a key of the mnemonic table
    | Quoted(text: string)      // `"text"`
    | OpenQuote(text: string)   // `"text`
    | CloseQuote(text: string)  // `text"`
    | Number(literal: string)   // anything else

  /** The rule chain, in the order the source tries the rules. Inside a quote
      no token is ever read as a mnemonic or a number. */
  function Resolve(state: QuoteState, p: string): Token
  {
    if |p| == 1 && p == "\"" then LoneQuote
    else if p == "" || p == " " then (if state.Inside? then Gap else Blank)
    else if state.Inside? && !HasSuffix(p, "\"") then MidQuote(p)
    else if p in Table then
      Mnemonic(Table[p])
    else if HasPrefix(p, "\"") && HasSuffix(p, "\"") then
      QuoteEnds(p);
      Quoted(p[1..|p| - 1])
    else if HasPrefix(p, "\"") then OpenQuote(p[1..])
    else if HasSuffix(p, "\"") then CloseQuote(p[..|p| - 1])
    else Number(p)
  }

  /** A number token is the whole token, read outside a quote, and is
      neither empty, nor a mnemonic, nor quoted at either end. */
  lemma NumberShape(state: QuoteState, p: string)
    requires Resolve(state, p).Number?
    ensures state.Outside? && Resolve(state, p).literal == p && p !in Table
    ensures p != "" && !HasPrefix(p, "\"") && !HasSuffix(p, "\"")
  {
  }

  /** A token that starts and ends with a quote and is not a lone quote
      holds the two quotes at different places. */
  lemma QuoteEnds(p: string)
    requires HasPrefix(p, "\"") && HasSuffix(p, "\"") && p != "\""
    ensures |p| >= 2
  {
  }

  /** Outside a quote a token is read as a mnemonic exactly when it is a key
      of the table, and then as that key's byte; inside a quote never. */
  lemma ResolveMnemonic(state: QuoteState, p: string)
    ensures Resolve(state, p).Mnemonic? <==> state.Outside? && p in Table
    ensures Resolve(state, p).Mnemonic? ==> Resolve(state, p).code == Table[p]
  {
    if state.Outside? && p in Table {
      MnemonicShape(p);
      assert p[0] in p;
    }
    if state.Inside? && p in Table {
      QuoteIsNoMnemonic(p);
      MnemonicShape(p);
      assert p[0] in p;
    }
  }

  /** A token with a quote at either end is never a mnemonic. */
  lemma QuoteIsNoMnemonic(p: string)
    requires p in Table
    ensures !HasPrefix(p, "\"") && !HasSuffix(p, "\"")
  {
    MnemonicShape(p);
    assert p[0] in p && p[|p| - 1] in p;
  }

  /** The quote flag after a token: only a lone quote and an opening
      fragment set it, only a closing fragment clears it. */
  function Next(state: QuoteState, t: Token): QuoteState
  {
    match t
    case LoneQuote => Inside
    case OpenQuote(_) => Inside
    case CloseQuote(_) => Outside
    case _ => state
  }

  /** The bytes a token writes, or the parse error of a number token. */
  function Emit(t: Token, toAscii: string -> seq<byte>): (r: Result<seq<byte>, NumError>)
    ensures r.Err? <==> t.Number? && ParseByte(t.literal).Err?
  {
    match t
    case LoneQuote => Ok([])
    case Gap => Ok([Space])
    case Blank => Ok([])
    case MidQuote(w) => Ok(toAscii(w) + [Space])
    case Mnemonic(b) => Ok([b])
    case Quoted(x) => Ok(toAscii(x))
    case OpenQuote(x) => Ok(toAscii(x))
    case CloseQuote(x) => Ok(toAscii(x))
    case Number(p) =>
      match ParseByte(p)
      case Ok(v) => Ok([v])
      case Err(e) => Err(e)
  }

  /** A failing conversion names a token that the table does not hold and
      that `ParseUint` rejects with the reported cause. */
  predicate BadToken(e: ConvertError, tokens: seq<string>)
  {
    e.BadNumber? && e.token in tokens && e.token !in Table && ParseByte(e.token) == Err(e.cause)
  }

  /** The inner loop over the space-separated tokens of one line. */
  function ConvertTokens(state: QuoteState, parts: seq<string>, toAscii: string -> seq<byte>): Converted
    decreases |parts|
  {
    if |parts| == 0 then Succeeded([])
    else
      var t := Resolve(state, parts[0]);
      match Emit(t, toAscii)
      case Err(e) => Converted([], Some(BadNumber(parts[0], e)))
      case Ok(bs) => Succeeded(bs).Then(ConvertTokens(Next(state, t), parts[1..], toAscii))
  }

  /** One record returned by `ReadString`: trimmed; skipped when it is at
      most one byte long or a comment; otherwise split on single spaces and
      converted with the quote flag starting out clear. */
  function ConvertRecord(record: string, toAscii: string -> seq<byte>): Converted
  {
    var line := TrimSpace(record);
    if |line| <= 1 || HasPrefix(line, CommentMarker) then Succeeded([])
    else ConvertTokens(Outside, Split(line, ' '), toAscii)
  }

  /** The outer loop over the records, ending as the source ends. */
  function ConvertRecords(rs: seq<string>, end: Ending, toAscii: string -> seq<byte>): Converted
    decreases |rs|
  {
    if |rs| == 0 then Converted([], if end == Eof then None else Some(ReadFailed))
    else ConvertRecord(rs[0], toAscii).Then(ConvertRecords(rs[1..], end, toAscii))
  }

  /** `Convert(reader, out)`: the complete LF-terminated records of the
      source are converted in order; a trailing partial record is dropped. */
  function Convert(src: Source, toAscii: string -> seq<byte>): Converted
  {
    ConvertRecords(Records(src.data, Delimiter), src.end, toAscii)
  }

  // ---------------------------------------------------------------------
  // The errors
  // ---------------------------------------------------------------------

  /** A failing line names one of its own tokens, which the table does not
      hold and which `ParseUint` rejects with the reported cause. */
  lemma {:induction false} TokensFailure(state: QuoteState, parts: seq<string>, toAscii: string -> seq<byte>)
    ensures var r := ConvertTokens(state, parts, toAscii);
      r.error.Some? ==> BadToken(r.error.value, parts)
    decreases |parts|
  {
    if |parts| > 0 {
      var t := Resolve(state, parts[0]);
      match Emit(t, toAscii)
      case Err(e) =>
        NumberShape(state, parts[0]);
        assert parts[0] in parts;
      case Ok(bs) =>
        var rest := ConvertTokens(Next(state, t), parts[1..], toAscii);
        TokensFailure(Next(state, t), parts[1..], toAscii);
        if rest.error.Some? {
          var k :| 0 <= k < |parts[1..]| && parts[1..][k] == rest.error.value.token;
          assert parts[k + 1] == rest.error.value.token;
        }
    }
  }

  lemma RecordFailure(record: string, toAscii: string -> seq<byte>)
    ensures var r := ConvertRecord(record, toAscii);
      r.error.Some? ==> BadToken(r.error.value, Split(TrimSpace(record), ' '))
  {
    var line := TrimSpace(record);
    if !(|line| <= 1 || HasPrefix(line, CommentMarker)) {
      TokensFailure(Outside, Split(line, ' '), toAscii);
    }
  }

  /** The only errors of the outer loop: a read failure, exactly when the
      source fails, and a rejected number token that is no mnemonic. */
  lemma {:induction false} RecordsFailure(rs: seq<string>, end: Ending, toAscii: string -> seq<byte>)
    ensures var r := ConvertRecords(rs, end, toAscii);
      && (r.error == Some(ReadFailed) ==> end == ReadError)
      && (end == ReadError ==> r.error.Some?)
      && (r.error.Some? && r.error.value.BadNumber? ==>
            r.error.value.token !in Table && ParseByte(r.error.value.token).Err?)
    decreases |rs|
  {
    if |rs| > 0 {
      RecordFailure(rs[0], toAscii);
      RecordsFailure(rs[1..], end, toAscii);
    }
  }

  /** `Convert` fails only on a read failure, always when the source fails,
      and otherwise only on a number token that is no mnemonic and that
      `ParseUint` rejects. */
  lemma ConvertFailure(src: Source, toAscii: string -> seq<byte>)
    ensures var r := Convert(src, toAscii);
      && (r.error == Some(ReadFailed) ==> src.end == ReadError)
      && (src.end == ReadError ==> r.error.Some?)
      && (r.error.Some? && r.error.value.BadNumber? ==>
            r.error.value.token !in Table && ParseByte(r.error.value.token).Err?)
  {
    RecordsFailure(Records(src.data, Delimiter), src.end, toAscii);
  }

  // ---------------------------------------------------------------------
  // Composition: no rollback, and lines are independent
  // ---------------------------------------------------------------------

  lemma ThenAssoc(a: Converted, b: Converted, c: Converted)
    ensures a.Then(b).Then(c) == a.Then(b.Then(c))
  {
    if a.error.None? && b.error.None? {
      assert (a.bytes + b.bytes) + c.bytes == a.bytes + (b.bytes + c.bytes);
    }
  }

  /** The quote flag after the tokens `ps`, starting from `state`. */
  function StateAfter(state: QuoteState, ps: seq<string>): QuoteState
    decreases |ps|
  {
    if |ps| == 0 then state else StateAfter(Next(state, Resolve(state, ps[0])), ps[1..])
  }

  /** Converting the tokens `ps + qs` writes what `ps` writes and then,
      unless `ps` failed, what `qs` writes from the flag `ps` left behind.
      So a failing token keeps every byte written before it. */
  lemma {:induction false} ConvertTokensAppend(state: QuoteState, ps: seq<string>, qs: seq<string>, toAscii: string -> seq<byte>)
    ensures ConvertTokens(state, ps + qs, toAscii)
         == ConvertTokens(state, ps, toAscii).Then(ConvertTokens(StateAfter(state, ps), qs, toAscii))
    decreases |ps|
  {
    var r := ConvertTokens(StateAfter(state, ps), qs, toAscii);
    if |ps| == 0 {
      assert ps + qs == qs;
      assert [] + r.bytes == r.bytes;
    } else {
      assert (ps + qs)[0] == ps[0];
      assert (ps + qs)[1..] == ps[1..] + qs;
      var t := Resolve(state, ps[0]);
      match Emit(t, toAscii)
      case Err(_) =>
      case Ok(bs) =>
        ConvertTokensAppend(Next(state, t), ps[1..], qs, toAscii);
        ThenAssoc(Succeeded(bs), ConvertTokens(Next(state, t), ps[1..], toAscii), r);
    }
  }

  /** Records `rs + qs` convert as `rs` (as if the input ended there) and
      then, unless that failed, `qs`. */
  lemma {:induction false} ConvertRecordsAppend(rs: seq<string>, qs: seq<string>, end: Ending, toAscii: string -> seq<byte>)
    ensures ConvertRecords(rs + qs, end, toAscii)
         == ConvertRecords(rs, Eof, toAscii).Then(ConvertRecords(qs, end, toAscii))
    decreases |rs|
  {
    var r := ConvertRecords(qs, end, toAscii);
    if |rs| == 0 {
      assert rs + qs == qs;
      assert [] + r.bytes == r.bytes;
    } else {
      assert (rs + qs)[0] == rs[0];
      assert (rs + qs)[1..] == rs[1..] + qs;
      var a := ConvertRecord(rs[0], toAscii);
      assert ConvertRecords(rs + qs, end, toAscii) == a.Then(ConvertRecords(rs[1..] + qs, end, toAscii));
      assert ConvertRecords(rs, Eof, toAscii) == a.Then(ConvertRecords(rs[1..], Eof, toAscii));
      ConvertRecordsAppend(rs[1..], qs, end, toAscii);
      ThenAssoc(a, ConvertRecords(rs[1..], Eof, toAscii), r);
    }
  }

  /** Complete lines convert independently of what follows them: the quote
      flag never carries over from one line to the next, and a later line
      cannot change or take back what an earlier one wrote. */
  lemma ConvertConcat(rs: seq<string>, t: string, end: Ending, toAscii: string -> seq<byte>)
    requires forall i :: 0 <= i < |rs| ==> IsRecord(rs[i], Delimiter)
    ensures Convert(Source(Concat(rs) + t, end), toAscii)
         == ConvertRecords(rs, Eof, toAscii).Then(Convert(Source(t, end), toAscii))
  {
    RecordsOfConcat(rs, t, Delimiter);
    ConvertRecordsAppend(rs, Records(t, Delimiter), end, toAscii);
  }

  /** Text that ends with LF converts on its own, before whatever follows
      it. Output of the builder always ends with LF, so the conversion of a
      sequence of builder calls is the conversion of each call in turn. */
  lemma ConvertAppend(a: string, b: string, end: Ending, toAscii: string -> seq<byte>)
    requires |a| == 0 || a[|a| - 1] == '\n'
    ensures Convert(Source(a + b, end), toAscii)
         == Convert(Source(a, Eof), toAscii).Then(Convert(Source(b, end), toAscii))
  {
    DelimiterIsLF();
    var rs := Records(a, Delimiter);
    RecordsAll(a, Delimiter);
    ConvertConcat(rs, b, end, toAscii);
    assert Concat(rs) + "" == a;
    ConvertConcat(rs, "", Eof, toAscii);
    TailDropped("", Eof, toAscii);
    SeqUnit(ConvertRecords(rs, Eof, toAscii).bytes);
  }

  lemma DelimiterIsLF()
    ensures Delimiter == '\n'
  {
  }

  /** A line ended by LF is converted on its own, before the rest. */
  lemma ConvertLine(line: string, rest: string, end: Ending, toAscii: string -> seq<byte>)
    requires '\n' !in line
    ensures Convert(Source(line + "\n" + rest, end), toAscii)
         == ConvertRecord(line + "\n", toAscii).Then(Convert(Source(rest, end), toAscii))
  {
    DelimiterIsLF();
    var r := line + "\n";
    assert r[..|r| - 1] == line;
    RecordsCons(r, rest, Delimiter);
  }

  /** Text after the last LF is never converted: at the end of the input it
      is dropped silently, and a read error is reported without it. */
  lemma TailDropped(t: string, end: Ending, toAscii: string -> seq<byte>)
    requires '\n' !in t
    ensures Convert(Source(t, end), toAscii) == Converted([], if end == Eof then None else Some(ReadFailed))
  {
    DelimiterIsLF();
    NoRecords(t, Delimiter);
  }

  /** A read error keeps everything converted before it and is reported
      unless a number error came first. */
  lemma ReadErrorKeepsBytes(data: string, toAscii: string -> seq<byte>)
    ensures Convert(Source(data, ReadError), toAscii)
         == Convert(Source(data, Eof), toAscii).Then(Converted([], Some(ReadFailed)))
  {
    var rs := Records(data, Delimiter);
    assert rs + [] == rs;
    ConvertRecordsAppend(rs, [], ReadError, toAscii);
  }

  // ---------------------------------------------------------------------
  // Lines and tokens
  // ---------------------------------------------------------------------

  /** A line whose space-separated words are `ws`, indented by `pad` and
      followed by the white space `tail`, converts to the tokens `ws`: its
      ends are not white space, it is not a comment and it is longer than
      one byte. */
  lemma SolidLine(pad: string, ws: seq<string>, tail: string, toAscii: string -> seq<byte>)
    requires AllSpace(pad) && AllSpace(tail)
    requires |ws| >= 1 && forall i :: 0 <= i < |ws| ==> ' ' !in ws[i]
    requires |ws[0]| >= 1 && !IsSpace(ws[0][0]) && ws[0][0] != '\''
    requires |ws[|ws| - 1]| >= 1 && !IsSpace(ws[|ws| - 1][|ws[|ws| - 1]| - 1])
    requires |ws| >= 2 || |ws[0]| >= 2
    ensures ConvertRecord(pad + Join(ws, ' ') + tail, toAscii) == ConvertTokens(Outside, ws, toAscii)
  {
    var x := Join(ws, ' ');
    var last := ws[|ws| - 1];
    JoinEnds(ws, ' ');
    assert x[0] == ws[0][0];
    assert x[|x| - 1] == last[|last| - 1] by {
      assert x[|x| - |last|..] == last;
    }
    TrimSpaceOf(pad, x, tail);
    assert TrimSpace(pad + x + tail) == x;
    assert |x| >= 2;
    assert !HasPrefix(x, CommentMarker) by {
      if |x| >= |CommentMarker| {
        assert x[..|CommentMarker|][0] == x[0];
      }
    }
    SplitJoin(ws, ' ');
  }

  /** A token that starts with a decimal digit is no mnemonic. */
  lemma DigitIsNoMnemonic(p: string)
    requires |p| >= 1 && '0' <= p[0] <= '9'
    ensures p !in Table
  {
    if p in Table {
      MnemonicShape(p);
    }
  }

  /** Outside a quote, a token that is not empty, has no quote at either end
      and is not a mnemonic falls through to the number rule. */
  lemma ResolveNumber(p: string)
    requires |p| >= 1 && p[0] != ' ' && p[0] != '"' && p[|p| - 1] != '"' && p !in Table
    ensures Resolve(Outside, p) == Number(p)
  {
    assert !HasPrefix(p, "\"") && !HasSuffix(p, "\"") by {
      assert p[..1] == [p[0]] && p[|p| - 1..] == [p[|p| - 1]];
    }
  }

  /** The records of a file of one line. */
  lemma LineRecords(line: string)
    requires '\n' !in line
    ensures Records(line + "\n", Delimiter) == [line + "\n"]
  {
    var record := line + "\n";
    DelimiterIsLF();
    assert record[..|record| - 1] == line;
    SeqUnit(record);
    RecordsCons(record, "", Delimiter);
    NoRecords("", Delimiter);
  }

  lemma SingleRecord(record: string, toAscii: string -> seq<byte>)
    ensures ConvertRecords([record], Eof, toAscii) == ConvertRecord(record, toAscii)
  {
    SeqUnit(ConvertRecord(record, toAscii).bytes);
  }

  /** A file of one line converts as that line. */
  lemma OneLine(line: string, toAscii: string -> seq<byte>)
    requires '\n' !in line
    ensures Convert(Source(line + "\n", Eof), toAscii) == ConvertRecord(line + "\n", toAscii)
  {
    LineRecords(line);
    SingleRecord(line + "\n", toAscii);
  }

  /** One token alone writes what the token writes. */
  lemma SingleToken(state: QuoteState, p: string, toAscii: string -> seq<byte>)
    ensures ConvertTokens(state, [p], toAscii)
         == match Emit(Resolve(state, p), toAscii)
            case Ok(bs) => Succeeded(bs)
            case Err(e) => Converted([], Some(BadNumber(p, e)))
  {
    assert [p][1..] == [];
    match Emit(Resolve(state, p), toAscii)
    case Ok(bs) =>
      SeqUnit(bs);
    case Err(_) =>
  }

  /** Records are trimmed first: indentation and the CR of a CRLF line
      ending change nothing. */
  lemma PaddedLine(pad: string, line: string, toAscii: string -> seq<byte>)
    requires AllSpace(pad) && '\n' !in pad && '\n' !in line && Trimmed(line)
    ensures Convert(Source(pad + line + "\r\n", Eof), toAscii) == Convert(Source(line + "\n", Eof), toAscii)
  {
    var padded := pad + line + "\r";
    assert '\n' !in padded;
    assert padded + "\n" == pad + line + "\r\n";
    OneLine(padded, toAscii);
    OneLine(line, toAscii);
    PaddedTrim(pad, line);
  }

  lemma PaddedTrim(pad: string, line: string)
    requires AllSpace(pad) && Trimmed(line)
    ensures TrimSpace(pad + line + "\r\n") == line
    ensures TrimSpace(line + "\n") == line
  {
    assert AllSpace("\r\n") && AllSpace("\n") && AllSpace("");
    TrimSpaceOf(pad, line, "\r\n");
    TrimSpaceOf("", line, "\n");
    assert "" + line + "\n" == line + "\n";
  }

  /** A line holding a single character besides white space is skipped,
      whatever the character: a one-digit number, a lone quote, anything. */
  lemma ShortLine(pad: string, c: char, tail: string, toAscii: string -> seq<byte>)
    requires AllSpace(pad) && AllSpace(tail) && '\n' !in pad && '\n' !in tail && !IsSpace(c)
    ensures Convert(Source(pad + [c] + tail + "\n", Eof), toAscii) == Succeeded([])
  {
    var line := pad + [c] + tail;
    assert '\n' !in line;
    OneLine(line, toAscii);
    ShortTrim(pad, c, tail);
  }

  /** A line of white space alone is skipped. */
  lemma WhiteLine(pad: string, toAscii: string -> seq<byte>)
    requires AllSpace(pad) && '\n' !in pad
    ensures Convert(Source(pad + "\n", Eof), toAscii) == Succeeded([])
  {
    OneLine(pad, toAscii);
    WhiteTrim(pad);
  }

  lemma WhiteTrim(pad: string)
    requires AllSpace(pad)
    ensures TrimSpace(pad + "\n") == ""
  {
    assert AllSpace("\n");
    assert pad + "\n" == pad + "" + "\n";
    TrimSpaceOf(pad, "", "\n");
  }

  lemma ShortTrim(pad: string, c: char, tail: string)
    requires AllSpace(pad) && AllSpace(tail) && !IsSpace(c)
    ensures |TrimSpace(pad + [c] + tail + "\n")| == 1
  {
    assert AllSpace("\n");
    AllSpaceConcat(tail, "\n");
    assert pad + [c] + tail + "\n" == pad + [c] + (tail + "\n");
    TrimSpaceOf(pad, [c], tail + "\n");
  }


  /** A comment line writes nothing, whatever it says. */
  lemma CommentSkipped(text: string, toAscii: string -> seq<byte>)
    requires '\n' !in text
    ensures Convert(Source(CommentMarker + text + "\n", Eof), toAscii) == Succeeded([])
  {
    OneLine(CommentMarker + text, toAscii);
    CommentRecord(text, toAscii);
  }

  lemma CommentRecord(text: string, toAscii: string -> seq<byte>)
    ensures ConvertRecord(CommentMarker + text + "\n", toAscii) == Succeeded([])
  {
    SeqAssoc(CommentMarker, text, "\n");
    TrimSpaceKeepsPrefix(CommentMarker, text + "\n");
  }

  /** A line holding the decimal number n: a one-digit line is skipped as too
      short; otherwise n is written as one byte, or rejected as out of range
      when it exceeds 255, with nothing written. */
  lemma NumberLine(n: nat, toAscii: string -> seq<byte>)
    ensures Convert(Source(Decimal(n) + "\n", Eof), toAscii)
         == if n < 10 then Succeeded([])
            else if n <= MaxByte then Succeeded([n])
            else Converted([], Some(BadNumber(Decimal(n), Range)))
  {
    assert '\n' !in Decimal(n);
    OneLine(Decimal(n), toAscii);
    NumberRecord(n, toAscii);
  }

  lemma NumberRecord(n: nat, toAscii: string -> seq<byte>)
    ensures ConvertRecord(Decimal(n) + "\n", toAscii)
         == if n < 10 then Succeeded([])
            else if n <= MaxByte then Succeeded([n])
            else Converted([], Some(BadNumber(Decimal(n), Range)))
  {
    var d := Decimal(n);
    if n < 10 {
      SeqUnit(d + "\n");
      TrimSpaceOf("", d, "\n");
    } else {
      WordRecord(d, toAscii);
      NumberToken(n, toAscii);
    }
  }

  /** A line holding one word converts as that word. */
  lemma WordRecord(p: string, toAscii: string -> seq<byte>)
    requires |p| >= 2 && ' ' !in p && p[0] != '\''
    requires !IsSpace(p[0]) && !IsSpace(p[|p| - 1])
    ensures ConvertRecord(p + "\n", toAscii) == ConvertTokens(Outside, [p], toAscii)
  {
    var ws := [p];
    assert Join(ws, ' ') == p;
    SeqUnit(p);
    assert forall i :: 0 <= i < |ws| ==> ' ' !in ws[i];
    SolidLine("", ws, "\n", toAscii);
  }

  /** A decimal number token outside a quote writes its value, or fails
      with a range error when the value exceeds 255. */
  lemma NumberToken(n: nat, toAscii: string -> seq<byte>)
    ensures ConvertTokens(Outside, [Decimal(n)], toAscii)
         == if n <= MaxByte then Succeeded([n]) else Converted([], Some(BadNumber(Decimal(n), Range)))
    ensures StateAfter(Outside, [Decimal(n)]) == Outside
  {
    var d := Decimal(n);
    DigitIsNoMnemonic(d);
    ResolveNumber(d);
    ParseDecimal(n);
    SingleToken(Outside, d, toAscii);
    assert [d][1..] == [];
  }

  /** A mnemonic token outside a quote writes its byte. */
  lemma MnemonicToken(m: string, toAscii: string -> seq<byte>)
    requires m in Table
    ensures ConvertTokens(Outside, [m], toAscii) == Succeeded([Table[m]])
    ensures StateAfter(Outside, [m]) == Outside
  {
    ResolveMnemonic(Outside, m);
    SingleToken(Outside, m, toAscii);
    assert [m][1..] == [];
  }

  /** A token quoted at both ends writes the text between the quotes and
      leaves the flag as it was, in either state. */
  lemma QuotedToken(state: QuoteState, x: string, toAscii: string -> seq<byte>)
    ensures Resolve(state, "\"" + x + "\"") == Quoted(x)
    ensures ConvertTokens(state, ["\"" + x + "\""], toAscii) == Succeeded(toAscii(x))
    ensures StateAfter(state, ["\"" + x + "\""]) == state
  {
    var p := "\"" + x + "\"";
    assert p[..1] == "\"" && p[|p| - 1..] == "\"" && p[1..|p| - 1] == x;
    if p in Table {
      QuoteIsNoMnemonic(p);
    }
    SingleToken(state, p, toAscii);
    assert [p][1..] == [];
  }

  /** The `0x<d><d>` token: two decimal digits read as hexadecimal. */
  lemma HexPairToken(hi: nat, lo: nat, toAscii: string -> seq<byte>)
    requires hi < 10 && lo < 10
    ensures ConvertTokens(Outside, ["0x" + [DigitChar(hi), DigitChar(lo)]], toAscii) == Succeeded([16 * hi + lo])
    ensures StateAfter(Outside, ["0x" + [DigitChar(hi), DigitChar(lo)]]) == Outside
  {
    var p := "0x" + [DigitChar(hi), DigitChar(lo)];
    assert p[0] == '0' && p[|p| - 1] == DigitChar(lo);
    DigitIsNoMnemonic(p);
    ResolveNumber(p);
    ParseHexPair(hi, lo);
    SingleToken(Outside, p, toAscii);
    assert [p][1..] == [];
  }

  /** An indented instruction line whose first word is a mnemonic converts
      to its words. */
  lemma InstructionRecord(ws: seq<string>, toAscii: string -> seq<byte>)
    requires |ws| >= 1 && ws[0] in Table
    requires forall i :: 0 <= i < |ws| ==> |ws[i]| >= 1 && ' ' !in ws[i] && !IsSpace(ws[i][|ws[i]| - 1])
    ensures ConvertRecord("    " + Join(ws, ' ') + "\n", toAscii) == ConvertTokens(Outside, ws, toAscii)
  {
    MnemonicShape(ws[0]);
    SolidLine("    ", ws, "\n", toAscii);
  }

  /** "NUL" is not a mnemonic: a line holding it is rejected as a number. */
  lemma NulLine(toAscii: string -> seq<byte>)
    ensures Convert(Source("NUL\n", Eof), toAscii) == Converted([], Some(BadNumber("NUL", Syntax)))
  {
    assert "NUL" + "\n" == "NUL\n";
    OneLine("NUL", toAscii);
    NulRecord(toAscii);
  }

  lemma NulRecord(toAscii: string -> seq<byte>)
    ensures ConvertRecord("NUL\n", toAscii) == Converted([], Some(BadNumber("NUL", Syntax)))
  {
    assert "NUL" + "\n" == "NUL\n";
    WordRecord("NUL", toAscii);
    NulToken(toAscii);
  }

  lemma NulToken(toAscii: string -> seq<byte>)
    ensures ConvertTokens(Outside, ["NUL"], toAscii) == Converted([], Some(BadNumber("NUL", Syntax)))
  {
    var p := "NUL";
    NoZeroCode(p);
    ResolveNumber(p);
    assert BaseOf(p) == (10, p);
    assert DigitValue(p[0]) == Some(23);
    SingleToken(Outside, p, toAscii);
  }

  /** How a token moves the quote flag, stated on the token's text: a lone
      quote sets it from either state, a fragment closing a quote clears it
      from either state, a fragment opening a quote sets it only outside a
      quote (inside, it is just another word), and every other token leaves
      it alone. */
  lemma QuoteFlag(state: QuoteState, p: string)
    ensures Next(state, Resolve(state, p))
         == if p == "\"" then Inside
            else if |p| >= 2 && p[0] != '"' && p[|p| - 1] == '"' then Outside
            else if state.Outside? && |p| >= 1 && p[0] == '"' && p[|p| - 1] != '"' then Inside
            else state
  {
    if |p| >= 1 {
      assert HasPrefix(p, "\"") <==> p[0] == '"' by {
        assert p[..1] == [p[0]];
      }
      assert HasSuffix(p, "\"") <==> p[|p| - 1] == '"' by {
        assert p[|p| - 1..] == [p[|p| - 1]];
      }
    }
    if p in Table {
      QuoteIsNoMnemonic(p);
      MnemonicShape(p);
    }
  }

  /** What a token writes inside a quote: an empty token (two spaces in a
      row) writes one space, and a word with no closing quote is written
      followed by one space, even when it spells a mnemonic or a number. */
  lemma InsideQuote(p: string, toAscii: string -> seq<byte>)
    ensures p == "" ==> Emit(Resolve(Inside, p), toAscii) == Ok([Space])
    ensures p != "" && p != " " && !HasSuffix(p, "\"") ==>
              Emit(Resolve(Inside, p), toAscii) == Ok(toAscii(p) + [Space])
  {
  }

  /** Inside a quote, an opening fragment and a closing fragment write their
      texts with nothing between them: the space that separated them in the
      line is lost. The flag is clear again afterwards. */
  lemma QuotedPhrase(x: string, y: string, toAscii: string -> seq<byte>)
    requires |x| >= 1 && x[|x| - 1] != '"'
    requires |y| >= 1 && y[0] != '"'
    ensures ConvertTokens(Outside, ["\"" + x, y + "\""], toAscii) == Succeeded(toAscii(x) + toAscii(y))
    ensures StateAfter(Outside, ["\"" + x, y + "\""]) == Outside
  {
    var a, b := "\"" + x, y + "\"";
    OpenFragment(x);
    CloseFragment(Inside, y);
    var ws := [a, b];
    assert ws[0] == a && ws[1..] == [b] && [b][1..] == [];
    SingleToken(Inside, b, toAscii);
    assert ConvertTokens(Outside, ws, toAscii) == Succeeded(toAscii(x)).Then(ConvertTokens(Inside, [b], toAscii));
    assert Next(Outside, Resolve(Outside, a)) == Inside;
    assert StateAfter(Outside, ws) == StateAfter(Inside, [b]);
    assert Next(Inside, Resolve(Inside, b)) == Outside;
    assert StateAfter(Inside, [b]) == StateAfter(Outside, []);
  }

  /** A quote left open at the end of a line is not an error: the words
      after the opening fragment are written, each followed by a space. */
  lemma UnclosedQuote(x: string, y: string, toAscii: string -> seq<byte>)
    requires |x| >= 1 && x[|x| - 1] != '"'
    requires |y| >= 1 && y[|y| - 1] != '"' && y != " "
    ensures ConvertTokens(Outside, ["\"" + x, y], toAscii) == Succeeded(toAscii(x) + (toAscii(y) + [Space]))
    ensures StateAfter(Outside, ["\"" + x, y]) == Inside
  {
    var a := "\"" + x;
    OpenFragment(x);
    assert !HasSuffix(y, "\"") by {
      assert y[|y| - 1..] == [y[|y| - 1]];
    }
    assert Resolve(Inside, y) == MidQuote(y);
    var ws := [a, y];
    assert ws[0] == a && ws[1..] == [y] && [y][1..] == [];
    SingleToken(Inside, y, toAscii);
    assert ConvertTokens(Outside, ws, toAscii) == Succeeded(toAscii(x)).Then(ConvertTokens(Inside, [y], toAscii));
    assert Next(Outside, Resolve(Outside, a)) == Inside;
    assert StateAfter(Outside, ws) == StateAfter(Inside, [y]);
    assert Next(Inside, Resolve(Inside, y)) == Inside;
    assert StateAfter(Inside, [y]) == StateAfter(Inside, []);
  }

  /** Outside a quote, `"x` opens a quote and writes x. */
  lemma OpenFragment(x: string)
    requires |x| >= 1 && x[|x| - 1] != '"'
    ensures Resolve(Outside, "\"" + x) == OpenQuote(x)
  {
    var p := "\"" + x;
    assert p[..1] == "\"" && p[1..] == x;
    assert p[|p| - 1..] == [x[|x| - 1]];
    if p in Table {
      QuoteIsNoMnemonic(p);
    }
  }

  /** In either state, `y"` closes a quote and writes y. */
  lemma CloseFragment(state: QuoteState, y: string)
    requires |y| >= 1 && y[0] != '"'
    ensures Resolve(state, y + "\"") == CloseQuote(y)
  {
    var p := y + "\"";
    assert p[|p| - 1..] == "\"" && p[..|p| - 1] == y;
    assert p[..1] == [y[0]];
    if p in Table {
      QuoteIsNoMnemonic(p);
    }
  }

  // ---------------------------------------------------------------------
  // A reference encoder: the converter reads back what it writes
  // ---------------------------------------------------------------------

  /** The IR word for one byte: its mnemonic when it has one, otherwise `0x`
      and its hexadecimal digits. */
  function Word(b: byte): (w: string)
    ensures |w| >= 2 && forall i :: 0 <= i < |w| ==> !IsSpace(w[i]) && w[i] != '"'
    ensures 'A' <= w[0] <= 'Z' || w[0] == '0'
  {
    match NameOf(b)
    case Some(m) =>
      MnemonicShape(m);
      m
    case None =>
      var h := Hex(b);
      assert forall i :: 0 <= i < |h| ==> DigitValue(h[i]).Some?;
      "0x" + h
  }

  /** The words for a byte sequence, one per byte. */
  function Words(bs: seq<byte>): (ws: seq<string>)
    ensures |ws| == |bs| && forall i :: 0 <= i < |bs| ==> ws[i] == Word(bs[i])
  {
    if |bs| == 0 then [] else [Word(bs[0])] + Words(bs[1..])
  }

  /** One line of IR text that spells out `bs`. */
  function Spell(bs: seq<byte>): string
  {
    Join(Words(bs), ' ')
  }

  /** Each word writes its byte and leaves the flag clear. */
  lemma WordToken(b: byte, toAscii: string -> seq<byte>)
    ensures Emit(Resolve(Outside, Word(b)), toAscii) == Ok([b])
    ensures Next(Outside, Resolve(Outside, Word(b))) == Outside
  {
    match NameOf(b)
    case Some(m) =>
      ResolveMnemonic(Outside, m);
    case None =>
      var w := Word(b);
      DigitIsNoMnemonic(w);
      ResolveNumber(w);
      ParseHex(b);
  }

  lemma {:induction false} ConvertWords(bs: seq<byte>, toAscii: string -> seq<byte>)
    ensures ConvertTokens(Outside, Words(bs), toAscii) == Succeeded(bs)
    decreases |bs|
  {
    if |bs| > 0 {
      var ws := Words(bs);
      assert ws[0] == Word(bs[0]) && ws[1..] == Words(bs[1..]);
      WordToken(bs[0], toAscii);
      ConvertWords(bs[1..], toAscii);
      assert [bs[0]] + bs[1..] == bs;
    }
  }

  /** The converter is a left inverse of the reference encoder: a line
      spelling any byte sequence converts back to exactly that sequence. */
  lemma ConvertSpelled(bs: seq<byte>, toAscii: string -> seq<byte>)
    ensures Convert(Source(Spell(bs) + "\n", Eof), toAscii) == Succeeded(bs)
  {
    var ws := Words(bs);
    JoinAvoids(ws, ' ', '\n');
    OneLine(Spell(bs), toAscii);
    SpelledRecord(bs, toAscii);
  }

  lemma SpelledRecord(bs: seq<byte>, toAscii: string -> seq<byte>)
    ensures ConvertRecord(Spell(bs) + "\n", toAscii) == Succeeded(bs)
  {
    var s := Spell(bs);
    SeqUnit(s);
    if |bs| == 0 {
      TrimSpaceOf("", s, "\n");
    } else {
      var ws := Words(bs);
      assert forall i :: 0 <= i < |ws| ==> ' ' !in ws[i];
      SolidLine("", ws, "\n", toAscii);
      ConvertWords(bs, toAscii);
    }
  }

  /** A line holding one mnemonic writes exactly that mnemonic's byte. */
  lemma MnemonicLine(m: string, toAscii: string -> seq<byte>)
    requires m in Table
    ensures Convert(Source(m + "\n", Eof), toAscii) == Succeeded([Table[m]])
  {
    NameOfCode(m);
    assert Words([Table[m]]) == [m];
    assert Spell([Table[m]]) == m;
    ConvertSpelled([Table[m]], toAscii);
  }

  // ---------------------------------------------------------------------
  // The loops of the source
  // ---------------------------------------------------------------------

  /** `Convert` with the loop structure of the source: take the records
      `ReadString` returns one at a time, trim each, skip it or split it,
      and walk its tokens with the quote flag, appending each token's bytes
      to the output as soon as it is resolved; stop at the first failing
      token, and at the end of the records report how the source ended.
      It computes exactly what `Convert` describes. */
  method ConvertStream(src: Source, toAscii: string -> seq<byte>) returns (out: seq<byte>, err: Option<ConvertError>)
    ensures Converted(out, err) == Convert(src, toAscii)
  {
    var records := Records(src.data, Delimiter);
    out := [];
    SeqUnit(out);
    var i := 0;
    while i < |records|
      invariant i <= |records|
      invariant Convert(src, toAscii) == Succeeded(out).Then(ConvertRecords(records[i..], src.end, toAscii))
    {
      var out', err' := ConvertRecordStream(records[i], out, toAscii);
      RecordStep(records, i, out, out', err', src.end, toAscii);
      out, err, i := out', err', i + 1;
      if err.Some? {
        return;
      }
      assert Converted(out, err) == Succeeded(out);
    }
    assert records[i..] == [];
    SeqUnit(out);
    return out, if src.end == Eof then None else Some(ReadFailed);
  }

  /** One pass of the outer loop: trim, skip or split, then the inner loop. */
  method ConvertRecordStream(record: string, start: seq<byte>, toAscii: string -> seq<byte>)
    returns (out: seq<byte>, err: Option<ConvertError>)
    ensures Converted(out, err) == Succeeded(start).Then(ConvertRecord(record, toAscii))
  {
    var line := TrimSpace(record);
    if |line| <= 1 || HasPrefix(line, CommentMarker) {
      assert ConvertRecord(record, toAscii) == Succeeded([]);
      SeqUnit(start);
      return start, None;
    }
    var parts := Split(line, ' ');
    assert ConvertRecord(record, toAscii) == ConvertTokens(Outside, parts, toAscii);
    var inQuote := Outside;
    var i := 0;
    out := start;
    while i < |parts|
      invariant 0 <= i <= |parts|
      invariant Succeeded(start).Then(ConvertTokens(Outside, parts, toAscii))
             == Succeeded(out).Then(ConvertTokens(inQuote, parts[i..], toAscii))
    {
      var t := Resolve(inQuote, parts[i]);
      TokenStep(inQuote, parts, i, out, toAscii);
      match Emit(t, toAscii)
      case Err(e) =>
        return out, Some(BadNumber(parts[i], e));
      case Ok(bs) =>
        out := out + bs;
        inQuote := Next(inQuote, t);
      i := i + 1;
    }
    assert parts[i..] == [];
    SeqUnit(out);
    return out, None;
  }

  /** The outer loop's step: the next record is converted and appended;
      if that fails, nothing after it is. */
  lemma RecordStep(rs: seq<string>, i: nat, out: seq<byte>, out': seq<byte>, err': Option<ConvertError>, end: Ending, toAscii: string -> seq<byte>)
    requires i < |rs|
    requires Converted(out', err') == Succeeded(out).Then(ConvertRecord(rs[i], toAscii))
    ensures Succeeded(out).Then(ConvertRecords(rs[i..], end, toAscii))
         == Converted(out', err').Then(ConvertRecords(rs[i + 1..], end, toAscii))
  {
    var first, others := ConvertRecord(rs[i], toAscii), ConvertRecords(rs[i + 1..], end, toAscii);
    assert rs[i..][0] == rs[i] && rs[i..][1..] == rs[i + 1..];
    assert ConvertRecords(rs[i..], end, toAscii) == first.Then(others);
    ThenAssoc(Succeeded(out), first, others);
  }

  /** The inner loop's step: the next token either fails, keeping what was
      written, or appends its bytes and moves the flag. */
  lemma TokenStep(state: QuoteState, parts: seq<string>, i: nat, out: seq<byte>, toAscii: string -> seq<byte>)
    requires i < |parts|
    ensures var t := Resolve(state, parts[i]);
      Succeeded(out).Then(ConvertTokens(state, parts[i..], toAscii))
      == match Emit(t, toAscii)
         case Err(e) => Converted(out, Some(BadNumber(parts[i], e)))
         case Ok(bs) => Succeeded(out + bs).Then(ConvertTokens(Next(state, t), parts[i + 1..], toAscii))
  {
    var t := Resolve(state, parts[i]);
    assert parts[i..][0] == parts[i] && parts[i..][1..] == parts[i + 1..];
    SeqUnit(out);
    match Emit(t, toAscii)
    case Err(e) =>
    case Ok(bs) =>
      ThenAssoc(Succeeded(out), Succeeded(bs), ConvertTokens(Next(state, t), parts[i + 1..], toAscii));
  }
}

=== FILE: quote_space.dfy ===
/** A string literal broken at its spaces into an opening fragment, words
    and a closing fragment. The converter writes each word inside the
    quote followed by the space the split removed, but writes the opening
    fragment without one: the first space of every such literal is lost.
    `ConvertTokensCorrected` restores it, and with it every word of the
    literal is followed by exactly one space, except the last. */
module QuoteSpace {
  import opened Base
  import opened Text
  import opened Commands
  import opened Converter

  // ---------------------------------------------------------------------
  // Literals with spaces
  // ---------------------------------------------------------------------

  /** Words a literal can be broken into: not empty, and holding neither a
      space nor a quote. */
  predicate LiteralWord(w: string)
  {
    |w| >= 1 && ' ' !in w && '"' !in w
  }

  predicate LiteralWords(ws: seq<string>)
  {
    forall i :: 0 <= i < |ws| ==> LiteralWord(ws[i])
  }

  /** The tokens of the literal `"w0 w1 ... wn"`: the split at its spaces. */
  function PhraseTokens(ws: seq<string>): seq<string>
    requires |ws| >= 2
  {
    ["\"" + ws[0]] + CloseTokens(ws[1..])
  }

  /** The words after the opening fragment; the last one closes the quote. */
  function CloseTokens(vs: seq<string>): seq<string>
    requires |vs| >= 1
  {
    vs[..|vs| - 1] + [vs[|vs| - 1] + "\""]
  }

  /** The bytes of words with one space between consecutive ones. */
  function Spaced(ws: seq<string>, toAscii: string -> seq<byte>): seq<byte>
  {
    Join(AsciiOf(ws, toAscii), Space)
  }

  function AsciiOf(ws: seq<string>, toAscii: string -> seq<byte>): (r: seq<seq<byte>>)
    ensures |r| == |ws|
    decreases |ws|
  {
    if |ws| == 0 then [] else [toAscii(ws[0])] + AsciiOf(ws[1..], toAscii)
  }

  lemma SpacedStep(ws: seq<string>, toAscii: string -> seq<byte>)
    requires |ws| >= 2
    ensures Spaced(ws, toAscii) == toAscii(ws[0]) + [Space] + Spaced(ws[1..], toAscii)
  {
    var a := AsciiOf(ws, toAscii);
    assert a[1..] == AsciiOf(ws[1..], toAscii);
  }

  // ---------------------------------------------------------------------
  // The text of a literal and its tokens
  // ---------------------------------------------------------------------

  /** The tokens are the split of the quoted text at its spaces. */
  lemma PhraseSplit(ws: seq<string>)
    requires |ws| >= 2 && LiteralWords(ws)
    ensures Split("\"" + Join(ws, ' ') + "\"", ' ') == PhraseTokens(ws)
  {
    var ts := PhraseTokens(ws);
    PhraseJoin(ws);
    forall i | 0 <= i < |ts|
      ensures ' ' !in ts[i]
    {
      PhraseTokenShape(ws, i);
    }
    SplitJoin(ts, ' ');
  }

  /** Each token holds no space, and only the first starts with a quote. */
  lemma PhraseTokenShape(ws: seq<string>, i: nat)
    requires |ws| >= 2 && LiteralWords(ws) && i < |PhraseTokens(ws)|
    ensures var t := PhraseTokens(ws)[i];
      ' ' !in t && (i > 0 ==> |t| >= 1 && t[0] != '"')
  {
    var ts := PhraseTokens(ws);
    var vs := ws[1..];
    var n := |vs|;
    assert LiteralWord(ws[0]);
    if i == 0 {
      assert ts[0] == "\"" + ws[0];
    } else if i < n {
      assert ts[i] == vs[i - 1] && LiteralWord(vs[i - 1]);
      assert ts[i][0] in vs[i - 1];
    } else {
      assert ts[i] == vs[n - 1] + "\"" && LiteralWord(vs[n - 1]);
      assert ts[i][0] in vs[n - 1];
    }
  }

  lemma PhraseJoin(ws: seq<string>)
    requires |ws| >= 2
    ensures Join(PhraseTokens(ws), ' ') == "\"" + Join(ws, ' ') + "\""
  {
    var vs := ws[1..];
    var cs := CloseTokens(vs);
    var ts := PhraseTokens(ws);
    CloseJoin(vs);
    assert ts[0] == "\"" + ws[0] && ts[1..] == cs;
    assert Join(ts, ' ') == ts[0] + [' '] + Join(cs, ' ');
    assert Join(ws, ' ') == ws[0] + [' '] + Join(vs, ' ');
    QuoteAround(ws[0], Join(vs, ' '));
  }

  lemma QuoteAround(a: string, j: string)
    ensures ("\"" + a) + [' '] + (j + "\"") == "\"" + (a + [' '] + j) + "\""
  {
  }

  /** Closing the last word appends a quote to the joined words. */
  lemma CloseJoin(vs: seq<string>)
    requires |vs| >= 1
    ensures Join(CloseTokens(vs), ' ') == Join(vs, ' ') + "\""
  {
    var n := |vs|;
    var init, last := vs[..n - 1], vs[n - 1];
    assert CloseTokens(vs) == init + [last + "\""];
    if n == 1 {
      assert init + [last + "\""] == [last + "\""];
    } else {
      SeqSnoc(vs);
      JoinSnoc(init, last, ' ');
      JoinSnoc(init, last + "\"", ' ');
      SeqAssoc(Join(init, ' ') + [' '], last, "\"");
    }
  }

  // ---------------------------------------------------------------------
  // The converter as written
  // ---------------------------------------------------------------------

  /** Inside a quote, each word but the last is written followed by a
      space, and the closing one without: the words with their spaces. */
  lemma {:induction false} InsideWords(vs: seq<string>, toAscii: string -> seq<byte>)
    requires |vs| >= 1 && LiteralWords(vs)
    ensures ConvertTokens(Inside, CloseTokens(vs), toAscii) == Succeeded(Spaced(vs, toAscii))
    decreases |vs|
  {
    var v := vs[0];
    assert LiteralWord(v);
    if |vs| == 1 {
      assert CloseTokens(vs) == [v + "\""];
      CloseFragment(Inside, v);
      SingleToken(Inside, v + "\"", toAscii);
    } else {
      var rest := vs[1..];
      assert LiteralWords(rest) by {
        assert forall i :: 0 <= i < |rest| ==> rest[i] == vs[i + 1];
      }
      InsideWords(rest, toAscii);
      MidWord(v, CloseTokens(rest), toAscii);
      assert CloseTokens(vs) == [v] + CloseTokens(rest);
      SpacedStep(vs, toAscii);
    }
  }

  /** A word inside a quote, ahead of more tokens. */
  lemma MidWord(v: string, ts: seq<string>, toAscii: string -> seq<byte>)
    requires LiteralWord(v)
    ensures ConvertTokens(Inside, [v] + ts, toAscii)
         == Succeeded(toAscii(v) + [Space]).Then(ConvertTokens(Inside, ts, toAscii))
  {
    MidShape(v);
    var ps := [v] + ts;
    assert ps[0] == v && ps[1..] == ts;
    assert Emit(MidQuote(v), toAscii) == Ok(toAscii(v) + [Space]);
    assert ConvertTokens(Inside, ps, toAscii)
        == Succeeded(toAscii(v) + [Space]).Then(ConvertTokens(Next(Inside, MidQuote(v)), ts, toAscii));
  }

  /** A word inside a quote is read as a word of the literal. */
  lemma MidShape(v: string)
    requires LiteralWord(v)
    ensures Resolve(Inside, v) == MidQuote(v)
  {
    assert v[|v| - 1] in v;
    assert !HasSuffix(v, "\"") by {
      assert v[|v| - 1..] == [v[|v| - 1]];
    }
    assert v != "\"" && v != " " by {
      assert v[0] in v;
    }
  }

  /** The literal `"w0 w1 ... wn"` as written: the first word, then the
      others each preceded by a space but for the first of them. */
  lemma PhraseAsWritten(ws: seq<string>, toAscii: string -> seq<byte>)
    requires |ws| >= 2 && LiteralWords(ws)
    ensures ConvertTokens(Outside, PhraseTokens(ws), toAscii)
         == Succeeded(toAscii(ws[0]) + Spaced(ws[1..], toAscii))
  {
    var vs := ws[1..];
    assert LiteralWord(ws[0]);
    assert LiteralWords(vs) by {
      assert forall i :: 0 <= i < |vs| ==> vs[i] == ws[i + 1];
    }
    InsideWords(vs, toAscii);
    Opening(ws[0], CloseTokens(vs), toAscii);
  }

  /** An opening fragment as written: its word, with no space after it. */
  lemma Opening(w: string, ts: seq<string>, toAscii: string -> seq<byte>)
    requires LiteralWord(w)
    ensures ConvertTokens(Outside, ["\"" + w] + ts, toAscii)
         == Succeeded(toAscii(w)).Then(ConvertTokens(Inside, ts, toAscii))
  {
    assert w[|w| - 1] in w;
    OpenFragment(w);
    var ps := ["\"" + w] + ts;
    assert ps[0] == "\"" + w && ps[1..] == ts;
  }

  /** `"Hello World"`: one space short. */
  lemma HelloWorldPhrase(toAscii: string -> seq<byte>)
    ensures ConvertTokens(Outside, Split("\"Hello World\"", ' '), toAscii)
         == Succeeded(toAscii("Hello") + toAscii("World"))
    ensures ConvertTokens(Outside, Split("\"Hello World\"", ' '), toAscii)
         != Succeeded(toAscii("Hello") + [Space] + toAscii("World"))
  {
    var ws := ["Hello", "World"];
    HelloText();
    PhraseSplit(ws);
    PhraseAsWritten(ws, toAscii);
    assert ws[1..] == ["World"];
    assert Spaced(["World"], toAscii) == toAscii("World");
    assert |toAscii("Hello") + toAscii("World")| < |toAscii("Hello") + [Space] + toAscii("World")|;
  }

  lemma HelloText()
    ensures "\"" + Join(["Hello", "World"], ' ') + "\"" == "\"Hello World\""
    ensures LiteralWords(["Hello", "World"])
  {
    assert Join(["Hello", "World"], ' ') == "Hello" + [' '] + "World";
  }

  // ---------------------------------------------------------------------
  // The corrected converter
  // ---------------------------------------------------------------------

  /** What a token writes once an opening fragment is followed by the space
      that separated it from the next token, as every later word inside the
      quote is. */
  function EmitCorrected(t: Token, toAscii: string -> seq<byte>): (r: Result<seq<byte>, Strconv.NumError>)
  {
    match t
    case OpenQuote(x) => Ok(toAscii(x) + [Space])
    case _ => Emit(t, toAscii)
  }

  /** The token loop with the corrected opening fragment. */
  function ConvertTokensCorrected(state: QuoteState, parts: seq<string>, toAscii: string -> seq<byte>): Converted
    decreases |parts|
  {
    if |parts| == 0 then Succeeded([])
    else
      var t := Resolve(state, parts[0]);
      match EmitCorrected(t, toAscii)
      case Err(e) => Converted([], Some(BadNumber(parts[0], e)))
      case Ok(bs) => Succeeded(bs).Then(ConvertTokensCorrected(Next(state, t), parts[1..], toAscii))
  }

  /** No token of `ts` opens a quote when the tokens are read in turn from
      `state`, the flag moving as the loop moves it. */
  predicate OpensNoQuote(state: QuoteState, ts: seq<string>)
    decreases |ts|
  {
    |ts| == 0
    || (!Resolve(state, ts[0]).OpenQuote? && OpensNoQuote(Next(state, Resolve(state, ts[0])), ts[1..]))
  }

  /** The two loops agree on every token list in which no token opens a
      quote: lone quotes, whole quoted tokens, words inside a quote and
      closing fragments all convert alike. */
  lemma {:induction false} NoOpening(state: QuoteState, ts: seq<string>, toAscii: string -> seq<byte>)
    requires OpensNoQuote(state, ts)
    ensures ConvertTokensCorrected(state, ts, toAscii) == ConvertTokens(state, ts, toAscii)
    decreases |ts|
  {
    if |ts| > 0 {
      var t := Resolve(state, ts[0]);
      assert EmitCorrected(t, toAscii) == Emit(t, toAscii);
      NoOpening(Next(state, t), ts[1..], toAscii);
    }
  }

  /** A token that opens a quote converts differently: the corrected loop
      writes one more byte, the space. */
  lemma OpeningDiffers(state: QuoteState, p: string, toAscii: string -> seq<byte>)
    requires Resolve(state, p).OpenQuote?
    ensures ConvertTokensCorrected(state, [p], toAscii).bytes
         == ConvertTokens(state, [p], toAscii).bytes + [Space]
    ensures ConvertTokensCorrected(state, [p], toAscii) != ConvertTokens(state, [p], toAscii)
  {
    var t := Resolve(state, p);
    assert [p][0] == p && [p][1..] == [];
    assert Emit(t, toAscii) == Ok(toAscii(t.text));
    assert ConvertTokens(state, [p], toAscii) == Succeeded(toAscii(t.text));
    assert ConvertTokensCorrected(state, [p], toAscii) == Succeeded(toAscii(t.text) + [Space]);
  }

  /** A whole quoted token and a lone quote open nothing, so both loops
      convert them alike. */
  lemma WholeQuotesAgree(toAscii: string -> seq<byte>)
    ensures ConvertTokensCorrected(Outside, ["\"a\""], toAscii) == ConvertTokens(Outside, ["\"a\""], toAscii)
    ensures ConvertTokensCorrected(Outside, ["\"", "\"a"], toAscii) == ConvertTokens(Outside, ["\"", "\"a"], toAscii)
  {
    QuotedToken(Outside, "a", toAscii);
    assert ["\"a\""][1..] == [];
    NoOpening(Outside, ["\"a\""], toAscii);
    var ts := ["\"", "\"a"];
    assert Resolve(Outside, "\"") == LoneQuote;
    assert ts[1..] == ["\"a"] && ["\"a"][1..] == [];
    assert !HasSuffix("\"a", "\"");
    assert Resolve(Inside, "\"a") == MidQuote("\"a");
    NoOpening(Outside, ts, toAscii);
  }

  /** Tokens that do not start with a quote never open one. */
  lemma {:induction false} PlainOpensNoQuote(state: QuoteState, ts: seq<string>)
    requires forall i :: 0 <= i < |ts| ==> |ts[i]| >= 1 && ts[i][0] != '"'
    ensures OpensNoQuote(state, ts)
    decreases |ts|
  {
    if |ts| > 0 {
      var p := ts[0];
      assert !HasPrefix(p, "\"") by {
        assert p[..1] == [p[0]];
      }
      assert !Resolve(state, p).OpenQuote?;
      var rest := ts[1..];
      assert forall i :: 0 <= i < |rest| ==> rest[i] == ts[i + 1];
      PlainOpensNoQuote(Next(state, Resolve(state, p)), rest);
    }
  }

  /** The corrected converter writes the literal `"w0 w1 ... wn"` as its
      words with exactly one space between consecutive ones. */
  lemma PhraseCorrected(ws: seq<string>, toAscii: string -> seq<byte>)
    requires |ws| >= 2 && LiteralWords(ws)
    ensures ConvertTokensCorrected(Outside, PhraseTokens(ws), toAscii) == Succeeded(Spaced(ws, toAscii))
  {
    var vs := ws[1..];
    var cs := CloseTokens(vs);
    assert LiteralWord(ws[0]);
    assert LiteralWords(vs) by {
      assert forall i :: 0 <= i < |vs| ==> vs[i] == ws[i + 1];
    }
    InsideWords(vs, toAscii);
    forall i | 0 <= i < |cs|
      ensures |cs[i]| >= 1 && cs[i][0] != '"'
    {
      PhraseTokenShape(ws, i + 1);
      assert cs[i] == PhraseTokens(ws)[i + 1];
    }
    PlainOpensNoQuote(Inside, cs);
    NoOpening(Inside, cs, toAscii);
    OpeningCorrected(ws[0], cs, toAscii);
    SpacedStep(ws, toAscii);
  }

  /** An opening fragment once corrected: its word and a space. */
  lemma OpeningCorrected(w: string, ts: seq<string>, toAscii: string -> seq<byte>)
    requires LiteralWord(w)
    ensures ConvertTokensCorrected(Outside, ["\"" + w] + ts, toAscii)
         == Succeeded(toAscii(w) + [Space]).Then(ConvertTokensCorrected(Inside, ts, toAscii))
  {
    assert w[|w| - 1] in w;
    OpenFragment(w);
    var ps := ["\"" + w] + ts;
    assert ps[0] == "\"" + w && ps[1..] == ts;
  }

  /** `"Hello World"` once corrected: both words and the space. */
  lemma HelloWorldCorrected(toAscii: string -> seq<byte>)
    ensures ConvertTokensCorrected(Outside, Split("\"Hello World\"", ' '), toAscii)
         == Succeeded(toAscii("Hello") + [Space] + toAscii("World"))
  {
    var ws := ["Hello", "World"];
    HelloText();
    PhraseSplit(ws);
    PhraseCorrected(ws, toAscii);
    SpacedStep(ws, toAscii);
    assert ws[1..] == ["World"];
    assert Spaced(["World"], toAscii) == toAscii("World");
  }
}

=== FILE: strconv.dfy ===
/** The two pieces of Go's number handling that the codec uses:
    `strconv.ParseUint(p, 0, 8)`, which the converter applies to every token
    that is neither a mnemonic nor a quoted fragment; the `%d` formatting of
    unsigned integers, which the builder writes; and `%x`, which only the
    reference spelling of byte sequences in `Converter` uses.
 */
module Strconv {
  import opened Base
  import opened Text

  /** The two errors `ParseUint` reports: `strconv.ErrSyntax` and `strconv.ErrRange`. */
  datatype NumError = Syntax | Range

  /** Largest value of an 8-bit unsigned integer (`bitSize` 8). */
  const MaxByte: nat := 255

  // ---------------------------------------------------------------------
  // Digits
  // ---------------------------------------------------------------------

  /** Value of a digit in bases up to 36: '0'-'9', then letters of either case. */
  function DigitValue(c: char): (d: Option<nat>)
    ensures d.Some? <==> ('0' <= c <= '9' || 'a' <= c <= 'z' || 'A' <= c <= 'Z')
    ensures d.Some? && '0' <= c <= '9' ==> d.value == c as int - '0' as int
    ensures d.Some? && !('0' <= c <= '9') ==> 10 <= d.value < 36
  {
    if '0' <= c <= '9' then Some(c as int - '0' as int)
    else if 'a' <= c <= 'z' then Some(c as int - 'a' as int + 10)
    else if 'A' <= c <= 'Z' then Some(c as int - 'A' as int + 10)
    else None
  }

  predicate IsDigit(c: char, base: nat)
  {
    DigitValue(c).Some? && DigitValue(c).value < base
  }

  /** Every character of `s` is a digit below `base` (no underscores). */
  predicate AllDigits(s: string, base: nat)
  {
    forall i :: 0 <= i < |s| ==> IsDigit(s[i], base)
  }

  /** The value of the digit string `s` read after an accumulator `acc`,
      most significant digit first. */
  function Accumulate(s: string, base: nat, acc: nat): nat
    requires AllDigits(s, base)
    decreases |s|
  {
    if |s| == 0 then acc
    else Accumulate(s[1..], base, acc * base + DigitValue(s[0]).value)
  }

  /** Appending a digit multiplies by the base and adds the digit. */
  lemma {:induction false} AccumulateSnoc(s: string, c: char, base: nat, acc: nat)
    requires AllDigits(s, base) && IsDigit(c, base)
    ensures AllDigits(s + [c], base)
    ensures Accumulate(s + [c], base, acc) == Accumulate(s, base, acc) * base + DigitValue(c).value
    decreases |s|
  {
    forall i | 0 <= i < |s + [c]|
      ensures IsDigit((s + [c])[i], base)
    {
      if i < |s| {
        assert (s + [c])[i] == s[i];
      }
    }
    if |s| == 0 {
      assert (s + [c])[1..] == [];
    } else {
      var next := acc * base + DigitValue(s[0]).value;
      assert (s + [c])[1..] == s[1..] + [c];
      AccumulateSnoc(s[1..], c, base, next);
      assert Accumulate(s, base, acc) == Accumulate(s[1..], base, next);
    }
  }

  /** Reading more digits never decreases the value. */
  lemma {:induction false} AccumulateGrows(s: string, base: nat, acc: nat)
    requires base >= 1 && AllDigits(s, base)
    ensures Accumulate(s, base, acc) >= acc
    decreases |s|
  {
    if |s| > 0 {
      assert acc * base >= acc;
      AccumulateGrows(s[1..], base, acc * base + DigitValue(s[0]).value);
    }
  }

  // ---------------------------------------------------------------------
  // strconv.ParseUint(s, 0, 8)
  // ---------------------------------------------------------------------

  /** Base selection of `ParseUint` with base 0: "0b"/"0B" binary, "0o"/"0O"
      octal and "0x"/"0X" hexadecimal when at least one character follows the
      prefix, a bare leading "0" octal, decimal otherwise. Returns the base
      and the digits that remain. */
  function BaseOf(s: string): (r: (nat, string))
    requires |s| > 0
    ensures r.0 in {2, 8, 10, 16}
    ensures r.0 == 10 <==> s[0] != '0'
    ensures r.0 == 10 ==> r.1 == s
  {
    if s[0] == '0' then
      if |s| >= 3 && LowerChar(s[1]) == 'b' then (2, s[2..])
      else if |s| >= 3 && LowerChar(s[1]) == 'o' then (8, s[2..])
      else if |s| >= 3 && LowerChar(s[1]) == 'x' then (16, s[2..])
      else (8, s[1..])
    else (10, s)
  }

  /** The digit loop of `ParseUint`: underscores are skipped (and remembered),
      a character that is not a digit below `base` is a syntax error, and the
      first digit that takes the value past 255 is a range error. The 64-bit
      cutoff test of the Go loop can never fire while the value is at most
      255, so it is not written out. */
  function Scan(s: string, base: nat, n: byte, underscores: bool): (r: Result<(byte, bool), NumError>)
    ensures r.Ok? && !underscores && !r.value.1 ==> AllDigits(s, base)
    ensures r.Ok? && underscores ==> r.value.1
    decreases |s|
  {
    if |s| == 0 then Ok((n, underscores))
    else if s[0] == '_' then Scan(s[1..], base, n, true)
    else
      match DigitValue(s[0])
      case None => Err(Syntax)
      case Some(d) =>
        if d >= base then Err(Syntax)
        else if n * base + d > MaxByte then Err(Range)
        else Scan(s[1..], base, n * base + d, underscores)
  }

  /** What the last character seen by `UnderscoreOK` was. */
  datatype Saw = Start | Digit | Underscore | Other

  /** Go's `underscoreOK`: an underscore may only sit between digits, or
      between a base prefix and a digit. */
  function UnderscoreOK(s: string): bool
  {
    var t := if |s| >= 1 && (s[0] == '-' || s[0] == '+') then s[1..] else s;
    if |t| >= 2 && t[0] == '0' && LowerChar(t[1]) in {'b', 'o', 'x'} then
      UnderscoreScan(t[2..], Digit, LowerChar(t[1]) == 'x')
    else
      UnderscoreScan(t, Start, false)
  }

  function UnderscoreScan(s: string, saw: Saw, hex: bool): bool
    decreases |s|
  {
    if |s| == 0 then saw != Underscore
    else
      var c := s[0];
      if '0' <= c <= '9' || (hex && 'a' <= LowerChar(c) <= 'f') then UnderscoreScan(s[1..], Digit, hex)
      else if c == '_' then saw == Digit && UnderscoreScan(s[1..], Underscore, hex)
      else if saw == Underscore then false
      else UnderscoreScan(s[1..], Other, hex)
  }

  /** `strconv.ParseUint(s, 0, 8)`. A literal it accepts always starts with
      a decimal digit, so no mnemonic or quoted token can be read as one. */
  function ParseByte(s: string): (r: Result<byte, NumError>)
    ensures r.Ok? ==> |s| > 0 && '0' <= s[0] <= '9'
  {
    if |s| == 0 then Err(Syntax)
    else
      var (base, digits) := BaseOf(s);
      match Scan(digits, base, 0, false)
      case Err(e) => Err(e)
      case Ok((n, underscores)) =>
        if underscores && !UnderscoreOK(s) then Err(Syntax)
        else
          assert s[0] != '0' ==> s[0] == '_' || DigitValue(s[0]).Some? by {
            if s[0] != '0' && s[0] != '_' { assert digits == s; }
          }
          assert s[0] == '_' ==> !UnderscoreOK(s);
          Ok(n)
  }

  /** A string of digits below `base` scans to its value, or to a range
      error exactly when that value exceeds 255. */
  lemma {:induction false} ScanDigits(s: string, base: nat, n: byte, underscores: bool)
    requires base >= 1 && AllDigits(s, base)
    ensures Scan(s, base, n, underscores) ==
              if Accumulate(s, base, n) <= MaxByte then Ok((Accumulate(s, base, n), underscores))
              else Err(Range)
    decreases |s|
  {
    if |s| > 0 {
      var d := DigitValue(s[0]).value;
      var m := n * base + d;
      assert s[0] != '_';
      assert Accumulate(s, base, n) == Accumulate(s[1..], base, m);
      if m > MaxByte {
        AccumulateGrows(s[1..], base, m);
      } else {
        ScanDigits(s[1..], base, m, underscores);
      }
    }
  }

  /** Without an underscore, the digit loop never reports one. */
  lemma {:induction false} NoUnderscoreScan(s: string, base: nat, n: byte)
    requires '_' !in s
    ensures Scan(s, base, n, false).Ok? ==> !Scan(s, base, n, false).value.1
    decreases |s|
  {
    if |s| > 0 {
      assert s[0] != '_';
      assert forall c :: c in s[1..] ==> c in s;
      match DigitValue(s[0])
      case None =>
      case Some(d) =>
        if d < base && n * base + d <= MaxByte {
          NoUnderscoreScan(s[1..], base, n * base + d);
        }
    }
  }

  /** For a token without underscores, `ParseUint(s, 0, 8)` succeeds exactly
      when the token is a prefix (or none) followed by digits of its base
      whose value fits in a byte, and the result is that value. Every other
      such token (`"12x"`, `"08"`, `"0x1G"`, `"256"`) is an error. */
  lemma ParseByteDigits(s: string)
    requires |s| > 0 && '_' !in s
    ensures var (base, digits) := BaseOf(s);
            ParseByte(s).Ok? <==> AllDigits(digits, base) && Accumulate(digits, base, 0) <= MaxByte
    ensures var (base, digits) := BaseOf(s);
            ParseByte(s).Ok? ==> AllDigits(digits, base) && ParseByte(s).value as nat == Accumulate(digits, base, 0)
  {
    var (base, digits) := BaseOf(s);
    assert forall c :: c in digits ==> c in s;
    NoUnderscoreScan(digits, base, 0);
    if AllDigits(digits, base) {
      ScanDigits(digits, base, 0, false);
    }
  }

  // ---------------------------------------------------------------------
  // fmt %d (the builder) and %x (the reference spelling) of unsigned integers
  // ---------------------------------------------------------------------

  function DigitChar(d: nat): (c: char)
    requires d < 16
    ensures DigitValue(c) == Some(d)
  {
    if d < 10 then ('0' as int + d) as char else ('a' as int + d - 10) as char
  }

  /** `fmt` verb `%d` on an unsigned integer: decimal, no leading zeros. */
  function Decimal(n: nat): (s: string)
    ensures |s| >= 1 && AllDigits(s, 10)
    ensures forall i :: 0 <= i < |s| ==> '0' <= s[i] <= '9'
    ensures s[0] == '0' <==> n == 0
    ensures |s| == 1 <==> n < 10
  {
    if n < 10 then [DigitChar(n)]
    else
      var s := Decimal(n / 10) + [DigitChar(n % 10)];
      assert s[0] == Decimal(n / 10)[0];
      s
  }

  /** `fmt` verb `%x` on an unsigned integer: lower-case hexadecimal. */
  function Hex(n: nat): (s: string)
    ensures |s| >= 1 && AllDigits(s, 16)
    ensures forall i :: 0 <= i < |s| ==> '_' != s[i]
  {
    if n < 16 then [DigitChar(n)] else Hex(n / 16) + [DigitChar(n % 16)]
  }

  /** Reading back what `%d` wrote gives the number. */
  lemma {:induction false} DecimalValue(n: nat)
    ensures Accumulate(Decimal(n), 10, 0) == n
  {
    if n >= 10 {
      AccumulateSnoc(Decimal(n / 10), DigitChar(n % 10), 10, 0);
      DecimalValue(n / 10);
    }
  }

  /** Reading back what `%x` wrote gives the number. */
  lemma {:induction false} HexValue(n: nat)
    ensures Accumulate(Hex(n), 16, 0) == n
  {
    if n >= 16 {
      AccumulateSnoc(Hex(n / 16), DigitChar(n % 16), 16, 0);
      HexValue(n / 16);
    }
  }

  /** `ParseUint(%d of n, 0, 8)` returns n when it fits in a byte and a range
      error otherwise. "0" itself takes the octal path with no digits left. */
  lemma ParseDecimal(n: nat)
    ensures ParseByte(Decimal(n)) == if n <= MaxByte then Ok(n) else Err(Range)
  {
    var s := Decimal(n);
    if n == 0 {
      assert s == "0";
      assert s[1..] == "";
      assert BaseOf(s) == (8, "");
    } else {
      assert BaseOf(s) == (10, s);
      DecimalValue(n);
      ScanDigits(s, 10, 0, false);
    }
  }

  /** `ParseUint("0x" + %x of n, 0, 8)` returns n for every byte value. */
  lemma ParseHex(n: nat)
    requires n <= MaxByte
    ensures ParseByte("0x" + Hex(n)) == Ok(n)
  {
    var s := "0x" + Hex(n);
    assert s[0] == '0' && s[1] == 'x' && s[2..] == Hex(n);
    assert BaseOf(s) == (16, Hex(n));
    HexValue(n);
    ScanDigits(Hex(n), 16, 0, false);
  }

  /** The builder's `0x%d%d` form: two decimal digits read as hexadecimal. */
  lemma ParseHexPair(hi: nat, lo: nat)
    requires hi < 10 && lo < 10
    ensures ParseByte("0x" + [DigitChar(hi), DigitChar(lo)]) == Ok(16 * hi + lo)
  {
    var digits := [DigitChar(hi), DigitChar(lo)];
    var s := "0x" + digits;
    assert s[0] == '0' && s[1] == 'x' && s[2..] == digits;
    assert BaseOf(s) == (16, digits);
    assert digits[1..] == [DigitChar(lo)] && digits[1..][1..] == [];
    assert Accumulate(digits, 16, 0) == Accumulate([DigitChar(lo)], 16, hi);
    assert Accumulate([DigitChar(lo)], 16, hi) == Accumulate([], 16, hi * 16 + lo);
    ScanDigits(digits, 16, 0, false);
  }
}

=== FILE: text.dfy ===
/** The parts of Go's `strings` and `bufio` packages that the codec relies on:
    searching, `strings.Split`, `strings.TrimSpace`, prefix and suffix tests,
    ASCII lower-casing, and the record splitting done by `ReadString`.
 */
module Text {
  import opened Base

  /** Index of the first occurrence of `c` in `s`. */
  function Find(s: string, c: char): (r: Option<nat>)
    ensures r.Some? ==> r.value < |s| && s[r.value] == c && c !in s[..r.value]
    ensures r.None? <==> c !in s
  {
    if |s| == 0 then None
    else if s[0] == c then Some(0)
    else
      match Find(s[1..], c)
      case None => None
      case Some(i) =>
        assert s[..i + 1] == [s[0]] + s[1..][..i];
        Some(i + 1)
  }

  /** The first occurrence is the one with no earlier occurrence. */
  lemma FindFirst(s: string, c: char, k: nat)
    requires k < |s| && s[k] == c && c !in s[..k]
    ensures Find(s, c) == Some(k)
  {
  }

  // ---------------------------------------------------------------------
  // strings.Split with a one-character separator, and its inverse
  // (`Join` of Base)
  // ---------------------------------------------------------------------

  /** `strings.Split(s, sep)`: the maximal separator-free pieces of `s`;
      n separators give n + 1 pieces, so "" gives [""]. */
  function Split(s: string, sep: char): (parts: seq<string>)
    ensures |parts| >= 1
    ensures forall i :: 0 <= i < |parts| ==> sep !in parts[i]
    ensures Join(parts, sep) == s
    decreases |s|
  {
    match Find(s, sep)
    case None => [s]
    case Some(i) =>
      var rest := Split(s[i + 1..], sep);
      assert ([s[..i]] + rest)[1..] == rest;
      assert s == s[..i] + [sep] + s[i + 1..];
      [s[..i]] + rest
  }

  /** Splitting undoes joining when no part contains the separator. */
  lemma {:induction false} SplitJoin(parts: seq<string>, sep: char)
    requires |parts| >= 1
    requires forall i :: 0 <= i < |parts| ==> sep !in parts[i]
    ensures Split(Join(parts, sep), sep) == parts
    decreases |parts|
  {
    if |parts| == 1 {
      assert Find(parts[0], sep) == None;
    } else {
      var tail := Join(parts[1..], sep);
      assert Join(parts, sep) == parts[0] + [sep] + tail;
      SplitCons(parts[0], tail, sep);
      SplitJoin(parts[1..], sep);
      assert [parts[0]] + parts[1..] == parts;
    }
  }

  /** Joining one more part appends a separator and the part. */
  lemma {:induction false} JoinSnoc(parts: seq<string>, w: string, sep: char)
    requires |parts| >= 1
    ensures Join(parts + [w], sep) == Join(parts, sep) + [sep] + w
    decreases |parts|
  {
    if |parts| == 1 {
      assert (parts + [w])[1..] == [w];
    } else {
      assert (parts + [w])[1..] == parts[1..] + [w];
      JoinSnoc(parts[1..], w, sep);
    }
  }

  /** A joined text starts with its first part and ends with its last. */
  lemma {:induction false} JoinEnds(parts: seq<string>, sep: char)
    requires |parts| >= 1
    ensures HasPrefix(Join(parts, sep), parts[0])
    ensures HasSuffix(Join(parts, sep), parts[|parts| - 1])
    ensures |parts| >= 2 ==> |Join(parts, sep)| > |parts[0]|
    decreases |parts|
  {
    if |parts| >= 2 {
      var u := Join(parts[1..], sep);
      JoinEnds(parts[1..], sep);
      assert Join(parts, sep) == parts[0] + [sep] + u;
      assert (parts[0] + [sep] + u)[..|parts[0]|] == parts[0];
      var last := parts[|parts| - 1];
      assert u[|u| - |last|..] == last;
      assert (parts[0] + [sep] + u)[|parts[0]| + 1 + |u| - |last|..] == u[|u| - |last|..];
    }
  }

  /** A character of a part is a character of the joined text. */
  lemma {:induction false} JoinMember(parts: seq<string>, sep: char, i: nat, c: char)
    requires i < |parts| && c in parts[i]
    ensures c in Join(parts, sep)
    decreases |parts|
  {
    var j := Join(parts, sep);
    if i == 0 {
      if |parts| >= 2 {
        var k :| 0 <= k < |parts[0]| && parts[0][k] == c;
        assert j == parts[0] + ([sep] + Join(parts[1..], sep));
        assert j[k] == parts[0][k];
      }
    } else {
      assert parts[1..][i - 1] == parts[i];
      JoinMember(parts[1..], sep, i - 1, c);
      var u := Join(parts[1..], sep);
      var m :| 0 <= m < |u| && u[m] == c;
      assert j == (parts[0] + [sep]) + u;
      assert j[|parts[0]| + 1 + m] == u[m];
    }
  }

  /** A character other than the separator that no part holds is not in the
      joined text. */
  lemma {:induction false} JoinAvoids(parts: seq<string>, sep: char, c: char)
    requires c != sep && forall i :: 0 <= i < |parts| ==> c !in parts[i]
    ensures c !in Join(parts, sep)
    decreases |parts|
  {
    if |parts| >= 2 {
      JoinAvoids(parts[1..], sep, c);
      assert Join(parts, sep) == parts[0] + [sep] + Join(parts[1..], sep);
    }
  }

  lemma SplitCons(a: string, u: string, sep: char)
    requires sep !in a
    ensures Split(a + [sep] + u, sep) == [a] + Split(u, sep)
  {
    var s := a + [sep] + u;
    var k := |a|;
    assert s[..k] == a;
    FindFirst(s, sep, k);
    assert s[k + 1..] == u;
  }

  // ---------------------------------------------------------------------
  // bufio.Reader.ReadString: delimiter-terminated records
  // ---------------------------------------------------------------------

  /** A complete record: it ends with the delimiter and holds no other one. */
  predicate IsRecord(r: string, delim: char)
  {
    |r| > 0 && r[|r| - 1] == delim && delim !in r[..|r| - 1]
  }

  /** The complete records that repeated `ReadString(delim)` calls return
      before reaching the end of `s`; each keeps its delimiter. The text after
      the last delimiter is not a record. */
  function Records(s: string, delim: char): (rs: seq<string>)
    ensures forall i :: 0 <= i < |rs| ==> IsRecord(rs[i], delim)
    decreases |s|
  {
    match Find(s, delim)
    case None => []
    case Some(i) =>
      var rest := Records(s[i + 1..], delim);
      assert ([s[..i + 1]] + rest)[1..] == rest;
      assert s[..i + 1][..i] == s[..i];
      [s[..i + 1]] + rest
  }

  /** The records cover `s` up to its last delimiter: their concatenation is
      a prefix of `s`, and what follows it holds no delimiter. */
  lemma {:induction false} RecordsCover(s: string, delim: char)
    ensures var c := Concat(Records(s, delim));
      |c| <= |s| && s[..|c|] == c && delim !in s[|c|..]
    decreases |s|
  {
    match Find(s, delim)
    case None =>
    case Some(i) =>
      var rest := Records(s[i + 1..], delim);
      RecordsCover(s[i + 1..], delim);
      assert Records(s, delim) == [s[..i + 1]] + rest;
      assert ([s[..i + 1]] + rest)[1..] == rest;
      var c := Concat(rest);
      var s2 := s[i + 1..];
      assert Concat(Records(s, delim)) == s[..i + 1] + c;
      var n := i + 1 + |c|;
      SlicePrefix(s, i + 1, n);
      assert s[n..] == s2[|c|..];
  }

  lemma SlicePrefix<T>(s: seq<T>, i: nat, j: nat)
    requires i <= j <= |s|
    ensures s[..j] == s[..i] + s[i..][..j - i]
  {
  }

  /** A text that ends with the delimiter is exactly its records. */
  lemma {:induction false} RecordsAll(s: string, delim: char)
    requires |s| == 0 || s[|s| - 1] == delim
    ensures Concat(Records(s, delim)) == s
    decreases |s|
  {
    if |s| > 0 {
      var i := LastIsFound(s, delim);
      var r, u := s[..i + 1], s[i + 1..];
      RecordsAll(u, delim);
      RecordsUnfold(s, delim);
    }
  }

  /** A text ending with the delimiter holds it, and what follows its first
      occurrence ends with the delimiter as well (or is empty). */
  lemma LastIsFound(s: string, delim: char) returns (i: nat)
    requires |s| > 0 && s[|s| - 1] == delim
    ensures delim in s && Find(s, delim) == Some(i)
    ensures |s[i + 1..]| == 0 || s[i + 1..][|s[i + 1..]| - 1] == delim
    ensures s[..i + 1] + s[i + 1..] == s
  {
    assert s[|s| - 1] in s;
    i := Find(s, delim).value;
  }

  /** The first record, split off the text by `Records`. */
  lemma RecordsUnfold(s: string, delim: char)
    requires delim in s
    ensures var i, rs := Find(s, delim).value, Records(s, delim);
      |rs| >= 1 && rs[0] == s[..i + 1] && rs[1..] == Records(s[i + 1..], delim)
  {
    var i := Find(s, delim).value;
    assert ([s[..i + 1]] + Records(s[i + 1..], delim))[1..] == Records(s[i + 1..], delim);
  }

  /** Records are recovered from their concatenation, whatever follows. */
  lemma {:induction false} RecordsOfConcat(rs: seq<string>, t: string, delim: char)
    requires forall i :: 0 <= i < |rs| ==> IsRecord(rs[i], delim)
    ensures Records(Concat(rs) + t, delim) == rs + Records(t, delim)
    decreases |rs|
  {
    if |rs| == 0 {
      assert Concat(rs) + t == t;
      assert rs + Records(t, delim) == Records(t, delim);
    } else {
      var u := Concat(rs[1..]) + t;
      assert Concat(rs) == rs[0] + Concat(rs[1..]);
      assert Concat(rs) + t == rs[0] + u;
      assert IsRecord(rs[0], delim);
      RecordsCons(rs[0], u, delim);
      RecordsOfConcat(rs[1..], t, delim);
      var rt := Records(t, delim);
      var tail := rs[1..];
      assert Records(u, delim) == tail + rt;
      SeqAssoc([rs[0]], tail, rt);
      assert [rs[0]] + tail == rs;
    }
  }

  lemma SeqAssoc<T>(a: seq<T>, b: seq<T>, c: seq<T>)
    ensures a + (b + c) == (a + b) + c
  {
  }

  lemma SeqUnit<T>(a: seq<T>)
    ensures a + [] == a && [] + a == a
  {
  }

  /** A non-empty sequence is its front followed by its last element. */
  lemma SeqSnoc<T>(a: seq<T>)
    requires |a| > 0
    ensures a == a[..|a| - 1] + [a[|a| - 1]]
  {
  }

  lemma RecordsCons(r: string, u: string, delim: char)
    requires IsRecord(r, delim)
    ensures Records(r + u, delim) == [r] + Records(u, delim)
  {
    var s := r + u;
    var k := |r| - 1;
    assert s[..k] == r[..k];
    FindFirst(s, delim, k);
    assert s[..k + 1] == r;
    assert s[k + 1..] == u;
  }

  /** A text holding no delimiter has no complete record. */
  lemma NoRecords(t: string, delim: char)
    requires delim !in t
    ensures Records(t, delim) == []
  {
  }

  // ---------------------------------------------------------------------
  // strings.TrimSpace, HasPrefix, HasSuffix, ToLower
  // ---------------------------------------------------------------------

  /** The ASCII white space that `strings.TrimSpace` removes:
      tab, LF, VT, FF, CR and space. */
  predicate IsSpace(c: char)
  {
    c == '\t' || c == '\n' || c == '\U{0B}' || c == '\U{0C}' || c == '\r' || c == ' '
  }

  predicate AllSpace(s: string)
  {
    forall i :: 0 <= i < |s| ==> IsSpace(s[i])
  }

  /** Neither end of `s` is white space (vacuously true of ""). */
  predicate Trimmed(s: string)
  {
    |s| == 0 || (!IsSpace(s[0]) && !IsSpace(s[|s| - 1]))
  }

  function TrimLeft(s: string): (r: string)
    ensures |r| <= |s| && r == s[|s| - |r|..]
    ensures AllSpace(s[..|s| - |r|])
    ensures |r| == 0 || !IsSpace(r[0])
  {
    if |s| > 0 && IsSpace(s[0]) then
      var r := TrimLeft(s[1..]);
      TrimLeftStep(s, r);
      r
    else s
  }

  /** Dropping a leading white-space character keeps `r` a suffix of `s`
      preceded only by white space. */
  lemma TrimLeftStep(s: string, r: string)
    requires |s| > 0 && IsSpace(s[0])
    requires |r| <= |s| - 1 && r == s[1..][|s| - 1 - |r|..]
    requires AllSpace(s[1..][..|s| - 1 - |r|])
    ensures r == s[|s| - |r|..]
    ensures AllSpace(s[..|s| - |r|])
  {
    var k := |s| - |r|;
    assert s[1..][k - 1..] == s[k..];
    forall i | 0 <= i < k
      ensures IsSpace(s[..k][i])
    {
      if i > 0 {
        assert s[..k][i] == s[1..][..k - 1][i - 1];
      }
    }
  }

  function TrimRight(s: string): (r: string)
    ensures |r| <= |s| && r == s[..|r|]
    ensures AllSpace(s[|r|..])
    ensures |r| == 0 || !IsSpace(r[|r| - 1])
  {
    if |s| > 0 && IsSpace(s[|s| - 1]) then
      var r := TrimRight(s[..|s| - 1]);
      assert s[|r|..] == s[..|s| - 1][|r|..] + [s[|s| - 1]];
      assert r == s[..|s| - 1][..|r|] == s[..|r|];
      r
    else s
  }

  /** `strings.TrimSpace` restricted to ASCII white space. */
  function TrimSpace(s: string): (r: string)
    ensures Trimmed(r)
    ensures |r| <= |s|
  {
    TrimRight(TrimLeft(s))
  }

  /** TrimSpace removes exactly the white space around a trimmed core. */
  lemma {:induction false} TrimSpaceOf(a: string, x: string, b: string)
    requires AllSpace(a) && AllSpace(b) && Trimmed(x)
    ensures TrimSpace(a + x + b) == x
  {
    if |x| == 0 {
      assert a + x + b == a + b;
      AllSpaceConcat(a, b);
      TrimLeftAllSpace(a + b);
    } else {
      var y := x + b;
      assert a + x + b == a + y;
      TrimLeftPrefix(a, y);
      TrimRightSuffix(x, b);
    }
  }

  lemma AllSpaceConcat(a: string, b: string)
    requires AllSpace(a) && AllSpace(b)
    ensures AllSpace(a + b)
  {
    forall i | 0 <= i < |a + b|
      ensures IsSpace((a + b)[i])
    {
      if i < |a| {
        assert (a + b)[i] == a[i];
      } else {
        assert (a + b)[i] == b[i - |a|];
      }
    }
  }

  lemma {:induction false} TrimLeftAllSpace(s: string)
    requires AllSpace(s)
    ensures TrimLeft(s) == ""
    decreases |s|
  {
    if |s| > 0 {
      TrimLeftAllSpace(s[1..]);
    }
  }

  lemma {:induction false} TrimLeftPrefix(a: string, y: string)
    requires AllSpace(a) && |y| > 0 && !IsSpace(y[0])
    ensures TrimLeft(a + y) == y
    decreases |a|
  {
    if |a| == 0 {
      assert a + y == y;
    } else {
      assert (a + y)[1..] == a[1..] + y;
      TrimLeftPrefix(a[1..], y);
    }
  }

  lemma {:induction false} TrimRightSuffix(x: string, b: string)
    requires AllSpace(b) && |x| > 0 && !IsSpace(x[|x| - 1])
    ensures TrimRight(x + b) == x
    decreases |b|
  {
    if |b| == 0 {
      assert x + b == x;
    } else {
      assert (x + b)[..|x + b| - 1] == x + b[..|b| - 1];
      TrimRightSuffix(x, b[..|b| - 1]);
    }
  }

  /** Trimming keeps a prefix that neither starts nor ends with white space. */
  lemma TrimSpaceKeepsPrefix(p: string, x: string)
    requires |p| >= 1 && !IsSpace(p[0]) && !IsSpace(p[|p| - 1])
    ensures HasPrefix(TrimSpace(p + x), p)
  {
    var s := p + x;
    assert TrimLeft(s) == s;
    var r := TrimRight(s);
    TrimRightKeeps(s, |p| - 1);
    assert r[..|p|] == s[..|p|];
  }

  /** Trimming on the right stops at the last character that is not white space. */
  lemma {:induction false} TrimRightKeeps(s: string, k: nat)
    requires k < |s| && !IsSpace(s[k])
    ensures |TrimRight(s)| > k
    decreases |s|
  {
    if IsSpace(s[|s| - 1]) {
      assert s[..|s| - 1][k] == s[k];
      TrimRightKeeps(s[..|s| - 1], k);
    }
  }

  predicate HasPrefix(s: string, p: string)
  {
    |p| <= |s| && s[..|p|] == p
  }

  predicate HasSuffix(s: string, p: string)
  {
    |p| <= |s| && s[|s| - |p|..] == p
  }

  /** ASCII lower-casing of one character. */
  function LowerChar(c: char): (d: char)
    ensures 'A' <= c <= 'Z' ==> d as int == c as int + 32
    ensures !('A' <= c <= 'Z') ==> d == c
  {
    if 'A' <= c <= 'Z' then (c as int + 32) as char else c
  }

  /** `strings.ToLower` on ASCII text. */
  function ToLower(s: string): (r: string)
    ensures |r| == |s|
    ensures forall i :: 0 <= i < |s| ==> r[i] == LowerChar(s[i])
  {
    seq(|s|, i requires 0 <= i < |s| => LowerChar(s[i]))
  }
  /** `c` is `d`, or the capital letter whose lower-case form is `d`. */
  predicate SameUpToCase(c: char, d: char)
  {
    c == d || ('A' <= c <= 'Z' && d as int == c as int + 32)
  }

  /** Comparing `ToLower(s)` with a text free of capitals, as `Justification`
      does, accepts exactly the texts that match it up to ASCII case. */
  lemma ToLowerMatches(s: string, t: string)
    requires forall i :: 0 <= i < |t| ==> !('A' <= t[i] <= 'Z')
    ensures ToLower(s) == t <==> |s| == |t| && forall i :: 0 <= i < |s| ==> SameUpToCase(s[i], t[i])
  {
    var r := ToLower(s);
    if |s| == |t| && forall i :: 0 <= i < |s| ==> SameUpToCase(s[i], t[i]) {
      forall i | 0 <= i < |s|
        ensures r[i] == t[i]
      {
        assert SameUpToCase(s[i], t[i]);
      }
    }
  }

}
